=== FILE: README.md ===
# Task tracker client rules, modelled in Dafny

The task tracker's React components hold a few rules of their own. This project models
them and proves properties about them:

- **Tasks tab** (`Tasks`): the statistics effect counts total, completed, pending,
  high-priority and overdue tasks. The model also covers the form with its selection, the
  checks `add`, `update` and `remove` make before sending, and the JSON body they send.
- **Search tab** (`Search`): how the filters become an ordered list of `URLSearchParams`
  pairs, how a reply becomes the result list, and how the dropdown options are filtered.
- **Reports tab** (`Reports`): the report text `generate` builds for each report type,
  and the note `exportCSV` appends.
- **Notifications tab** (`Notifications`): the heading and bullet lines `load` joins
  into its output.
- **Login form** (`Login`): the pre-submit check and the normalised credentials that
  `submit` sends. The model also covers how the reply sets the error and calls `onLogin`.

Two more modules support these. `Text` models the JavaScript string operations the
components use: `trim` with ECMAScript's white-space set, `join`, `String(n)` for
integers, and ASCII `toUpperCase`. It also has `split` on one character, which no
component calls. It is the inverse of `join` and of the `text +=` loop, and the model uses
it to read an output back as the lines its text area shows. `Wrappers` holds `Option`,
`Result`, the `??` operator, and `Reply`, which is what an awaited `fetch` plus `r.json()`
hands to a handler:

- `Failed` means the promise rejected.
- `Received(ok, body)` means a response arrived, with its status flag and decoded body.

Each component's state is a class. Its fields are the `useState` variables its handlers
change, and each handler is a method that receives the reply as a parameter. Loops of the
source are methods with loops: the statistics `forEach`, the report `text +=` loop and
the notification `push` loop. The successive conditional `params.set` calls of the search
are a straight-line method. Each of these methods is proved equal to a declarative
definition, and the properties are proved about that definition.

Behaviours of the code kept as written:

- `pending` counts every task whose status is not exactly "Completada".
- A selection id of 0 counts as no selection, because the test is `!selectedId`.
- The login password is not trimmed, so a password of spaces passes the check.
- A tasks report whose `data` is `null` makes `Object.entries` throw, so the output
  reads "Error de conexión".
- A tasks report whose `data` is an array lists index keys with "[object Object]".
- The search tab ignores the status code and keeps any array body.

## Model

| member | source | states |
|---|---|---|
| Wrappers.OrElse | components/tabs/ReportsTab.tsx:19 | `o ?? fallback`: the value when present, the fallback otherwise |
| Text.IsSpace | components/LoginForm.tsx:16 | the characters `trim` removes: TAB, LF, VT, FF, CR, SPACE, NBSP, the Zs space separators, LS, PS and the BOM |
| Text.TrimStart | components/LoginForm.tsx:16 | the result is a suffix of the input, everything dropped is white space, and it does not start with white space |
| Text.TrimEnd | components/LoginForm.tsx:16 | the result is a prefix of the input, everything dropped is white space, and it does not end with white space |
| Text.LeadingSpaces | components/LoginForm.tsx:16 | every character before the count is white space and the character at the count is not, so it counts exactly the leading white space |
| Text.Trim | components/LoginForm.tsx:16 | `trim` returns the slice after the leading white space, and it neither starts nor ends with white space |
| Text.TrimSlice | components/LoginForm.tsx:16 | a prefix of a suffix of a string is one of its slices |
| Text.TrimRemovesOnlySpace | components/LoginForm.tsx:25 | everything `trim` removes from either end is white space |
| Text.TrimEmptyIffAllSpace | components/LoginForm.tsx:16 | `!s.trim()` holds exactly when every character of `s` is white space |
| Text.TrimIdempotent | components/tabs/TasksTab.tsx:119 | trimming a trimmed title changes nothing |
| Text.Split | components/tabs/NotificationsTab.tsx:33 | splitting a text always gives at least one piece |
| Text.SplitAtSeparator | components/tabs/NotificationsTab.tsx:33 | splitting at a separator splits each side on its own |
| Text.SplitWithoutSeparator | components/tabs/NotificationsTab.tsx:33 | a text without the separator is a single piece |
| Text.SplitJoin | components/tabs/NotificationsTab.tsx:33 | splitting undoes `join` when no line holds the separator |
| Text.JoinSnoc | components/tabs/NotificationsTab.tsx:33 | joining one more line adds one separator and that line |
| Text.TerminatedIsJoin | components/tabs/ReportsTab.tsx:25-27 | appending `line + "\n"` per line gives the lines joined with line feeds, plus an empty last line |
| Text.Join | components/tabs/NotificationsTab.tsx:33 | `lines.join(sep)` is empty for no lines; otherwise it starts with the first line and has room for a separator between each two lines; `SplitJoin` shows it loses nothing |
| Text.Terminated | components/tabs/ReportsTab.tsx:25-35 | the text of `text += line + "\n"` per line is at least as long as the number of lines and ends with a line feed when there is a line |
| Text.JoinEndsWithLast | components/tabs/NotificationsTab.tsx:33 | the joined text ends with its last line |
| Text.NatToString | components/tabs/SearchTab.tsx:35 | `String(n)` is a non-empty run of digits with no leading zero, and "0" for zero |
| Text.NatToStringRoundTrip | components/tabs/SearchTab.tsx:35 | reading the decimal digits back gives the number |
| Text.IntToString | components/tabs/ReportsTab.tsx:26 | `String(i)` starts with a minus sign exactly when `i` is negative, followed by the decimal rendering of its magnitude |
| Text.IntToStringRoundTrip | components/tabs/ReportsTab.tsx:26 | after the sign, the rendering reads back as the integer's magnitude |
| Text.Upper | components/tabs/ReportsTab.tsx:22 | upper-casing keeps the length |
| Tasks.IsCompleted | components/tabs/TasksTab.tsx:71 | a task is completed when its status is exactly "Completada" |
| Tasks.IsPending | components/tabs/TasksTab.tsx:72 | a task is pending when its status is anything but "Completada", a missing status included |
| Tasks.IsHighPriority | components/tabs/TasksTab.tsx:73 | a task is high priority when its priority is "Alta" or "Crítica" |
| Tasks.IsOverdue | components/tabs/TasksTab.tsx:74-76 | a task is overdue when it is not "Completada", has a non-empty due date, and that date parses to an instant strictly before `now`; an overdue task is pending, and an Invalid Date never counts |
| Tasks.OverdueAt | components/tabs/TasksTab.tsx:74-76 | the overdue rule at a fixed instant, as the per-task test the counter takes |
| Tasks.Count | components/tabs/TasksTab.tsx:70-78 | a counter never exceeds the number of tasks |
| Tasks.CountZero | components/tabs/TasksTab.tsx:70-78 | a count is zero exactly when no task meets the rule |
| Tasks.CountAll | components/tabs/TasksTab.tsx:70-78 | a count equals the list length exactly when every task meets the rule |
| Tasks.CountComplement | components/tabs/TasksTab.tsx:71-72 | a rule and its negation count every task exactly once between them |
| Tasks.CountMonotone | components/tabs/TasksTab.tsx:74-77 | a stricter rule counts no more tasks |
| Tasks.StatsOf | components/tabs/TasksTab.tsx:63-80 | the total is the number of tasks and no counter exceeds it; completed, pending, high and overdue count the tasks meeting `IsCompleted`, `IsPending`, `IsHighPriority` and `IsOverdue`; `StatsConsistent` states the relations between the counters |
| Tasks.StatsConsistent | components/tabs/TasksTab.tsx:63-80 | total is the list length, completed + pending = total, high ≤ total, overdue ≤ pending |
| Tasks.ComputeStats | components/tabs/TasksTab.tsx:63-80 | the counting loop yields exactly the declarative statistics, which satisfy the relations above |
| Tasks.InitialForm | components/tabs/TasksTab.tsx:28-37 | the form's initial values: empty texts, "Pendiente", "Media", and 0 for project and assignee |
| Tasks.FormOf | components/tabs/TasksTab.tsx:98-107 | the form keeps the task's title and takes every optional field the task has, and the initial form's value for each one it lacks; a non-zero estimate becomes its `String` rendering and a missing or zero one leaves the hours empty |
| Tasks.FormOfBareTask | components/tabs/TasksTab.tsx:96-108 | selecting a task with every optional field missing fills in the initial form values around its title |
| Tasks.PayloadOf | components/tabs/TasksTab.tsx:118-127 | the body has the trimmed title, passes the text fields through, and omits project or assignee exactly when 0 and due date or hours exactly when empty |
| Tasks.SaveSelectedTaskText | components/tabs/TasksTab.tsx:96-127 | saving a just-selected task sends its title trimmed and its description, status and priority, or their defaults |
| Tasks.SaveSelectedTaskProject | components/tabs/TasksTab.tsx:96-127 | saving a just-selected task sends its project exactly when it is set and non-zero |
| Tasks.SaveSelectedTaskAssignee | components/tabs/TasksTab.tsx:96-127 | saving a just-selected task sends its assignee exactly when it is set and non-zero |
| Tasks.SaveSelectedTaskSchedule | components/tabs/TasksTab.tsx:96-127 | saving a just-selected task sends its due date exactly when it is non-empty, and hours exactly when they are non-zero |
| Tasks.HasSelection | components/tabs/TasksTab.tsx:140 | `!selectedId` is false: a selection that is neither `null` nor 0 |
| Tasks.AddDecision | components/tabs/TasksTab.tsx:110-128 | add sends a create request with the form's body exactly when the trimmed title is non-empty; otherwise it alerts "El título es requerido" |
| Tasks.UpdateDecision | components/tabs/TasksTab.tsx:139-161 | update sends a replace request for the selected id exactly when there is a non-zero selection and a non-blank title, and otherwise alerts the first failing check |
| Tasks.AddAndUpdateAgree | components/tabs/TasksTab.tsx:118-160 | whenever update sends, add would send the identical body, and its title is non-empty |
| Tasks.FindIndex | components/tabs/TasksTab.tsx:177 | the position found is the first task with the id, and there is none exactly when no task has it |
| Tasks.DeletePrompt | components/tabs/TasksTab.tsx:178 | the prompt starts with "¿Eliminar tarea: ", holds the task's title right after it, and ends with "?" |
| Tasks.RemoveDecision | components/tabs/TasksTab.tsx:172-179 | remove alerts without a selection and does nothing when the id is not in the list; it sends a delete request for the selected id exactly when the first task with that id is found and the prompt naming it is confirmed |
| Tasks.SaveAlert | components/tabs/TasksTab.tsx:129-136 | the alert is the refusal, the server's error (or "Error") on a failed status, or the success text; there is none when the request rejected |
| Tasks.TasksTab.constructor | components/tabs/TasksTab.tsx:23-38 | the tab starts with no tasks, the initial form, no selection and zero statistics |
| Tasks.TasksTab.RefreshStats | components/tabs/TasksTab.tsx:63-80 | the statistics become those of the current task list |
| Tasks.TasksTab.ClearForm | components/tabs/TasksTab.tsx:82-94 | the form returns to its initial values with no selection, and clearing a cleared form changes nothing |
| Tasks.TasksTab.SelectTask | components/tabs/TasksTab.tsx:96-108 | the selection becomes the task's id and the form is filled from the task |
| Tasks.TasksTab.Add | components/tabs/TasksTab.tsx:110-137 | sends what the add checks allow, alerts accordingly, and clears the form only after an ok reply |
| Tasks.TasksTab.Update | components/tabs/TasksTab.tsx:139-170 | sends what the update checks allow, alerts accordingly, and clears the form only after an ok reply |
| Tasks.TasksTab.Remove | components/tabs/TasksTab.tsx:172-187 | sends what the remove checks allow, alerts "Tarea eliminada" or "Error al eliminar", and clears the form only after an ok reply |
| Search.Lookup | components/tabs/SearchTab.tsx:32-35 | `params.get` finds nothing exactly when no pair has the key |
| Search.KeyNamesDistinct | components/tabs/SearchTab.tsx:32-35 | the names "q", "status", "priority" and "projectId" are distinct, so two keys share a name only when they are the same key |
| Search.Without | components/tabs/SearchTab.tsx:32-35 | dropping a key's pairs leaves no pair with that key, no more pairs, and every other key reading as before |
| Search.SetParam | components/tabs/SearchTab.tsx:32-35 | after `params.set(key, value)`, `params.get(key)` is the value and every other key reads as before |
| Search.SetParamFresh | components/tabs/SearchTab.tsx:32-35 | setting a key not yet present appends one pair at the end |
| Search.LookupAppend | components/tabs/SearchTab.tsx:31-35 | a lookup in two concatenated lists looks in the first one before the second |
| Search.QueryParams | components/tabs/SearchTab.tsx:31-35 | the query holds at most the four filters, and no pair with an empty value |
| Search.QueryParamsLookupSplit | components/tabs/SearchTab.tsx:31-35 | looking a key up in the query checks the four optional pairs in turn |
| Search.QueryParamsText | components/tabs/SearchTab.tsx:32 | "q" is present exactly when the text filter is non-empty, with that text |
| Search.QueryParamsStatus | components/tabs/SearchTab.tsx:33 | "status" is present exactly when the status filter is non-empty, with that value |
| Search.QueryParamsPriority | components/tabs/SearchTab.tsx:34 | "priority" is present exactly when the priority filter is non-empty, with that value |
| Search.QueryParamsProject | components/tabs/SearchTab.tsx:35 | "projectId" is present exactly when the project id is positive, as its decimal string |
| Search.ProjectIdReadsBack | components/tabs/SearchTab.tsx:35 | the "projectId" value is all digits and reads back as the selected id |
| Search.QueryParamsOrder | components/tabs/SearchTab.tsx:31-35 | the parameters come in the order q, status, priority, projectId, each at most once, and none come when every filter is empty or 0 |
| Search.BuildParams | components/tabs/SearchTab.tsx:30-35 | the successive conditional `params.set` calls build exactly the declarative query |
| Search.SetWhen | components/tabs/SearchTab.tsx:32-35 | a conditional `set` of a new key appends its pair exactly when the condition holds |
| Search.ResultsOf | components/tabs/SearchTab.tsx:36-42 | the results are the reply's array, and empty when the request rejected or the body is not an array |
| Search.NonEmptyOptions | components/tabs/SearchTab.tsx:72 | `filter(Boolean)` keeps exactly the non-empty options and no more |
| Search.NonEmptyOptionsAppend | components/tabs/SearchTab.tsx:72 | filtering keeps the options in their order |
| Search.NonEmptyOptionsKeeps | components/tabs/SearchTab.tsx:85 | a list with no empty option is left as it is |
| Search.DropdownOptions | components/tabs/SearchTab.tsx:45-46 | the status and priority dropdowns list their option lists without the leading empty entry |
| Search.SearchTab.constructor | components/tabs/SearchTab.tsx:16-21 | the filters start empty and 0, with no projects and no results |
| Search.SearchTab.LoadProjects | components/tabs/SearchTab.tsx:23-28 | the project list is the reply's array, or empty |
| Search.SearchTab.Search | components/tabs/SearchTab.tsx:30-43 | sends the query built from the current filters and stores the results of the reply |
| Reports.TypeName | components/tabs/ReportsTab.tsx:16 | the type's name in the query and the header is a lower-case ASCII word |
| Reports.TypeNamesDistinct | components/tabs/ReportsTab.tsx:16 | the three report types have three different names |
| Reports.Field | components/tabs/ReportsTab.tsx:30 | a template literal renders a missing member as "undefined" |
| Reports.CountText | components/tabs/ReportsTab.tsx:30 | a template literal renders a present count as `IntToString` of it, whose digits read back as the count, or "undefined" when missing |
| Reports.HeaderLine | components/tabs/ReportsTab.tsx:22 | the line is "=== REPORTE: ", the upper-cased type name, then " ==="; `HeaderLines` gives the three lines |
| Reports.Header | components/tabs/ReportsTab.tsx:22 | the header line followed by two line feeds, which leave a blank line |
| Reports.TaskLineParts | components/tabs/ReportsTab.tsx:26 | a tasks-report line is the key, ": ", the value and " tareas", each recoverable at its place |
| Reports.ProjectLine | components/tabs/ReportsTab.tsx:30 | a projects-report line has the tasks-report shape, with the rendered name and count |
| Reports.UserLine | components/tabs/ReportsTab.tsx:34 | a users-report line has the tasks-report shape with the rendered username and count, then " asignadas" |
| Reports.EntryLines | components/tabs/ReportsTab.tsx:25-27 | one "key: value tareas" line per entry, in entry order |
| Reports.IndexLines | components/tabs/ReportsTab.tsx:25-27 | over an array, one "index: [object Object] tareas" line per element, in order |
| Reports.ProjectLines | components/tabs/ReportsTab.tsx:29-31 | one "name: count tareas" line per project, in list order |
| Reports.UserLines | components/tabs/ReportsTab.tsx:33-35 | one "username: count tareas asignadas" line per user, in list order |
| Reports.ReportLines | components/tabs/ReportsTab.tsx:23-36 | the rendering throws (`None`) exactly when a tasks report gets `null`; the tasks, projects and users reports have their per-entry formats in data order; data of another shape gives no lines |
| Reports.ReportText | components/tabs/ReportsTab.tsx:22-36 | the report text starts with the header, is at least one character longer than the header per line, and ends with a line feed |
| Reports.OutputOf | components/tabs/ReportsTab.tsx:13-43 | the output is the connection message when the request or the rendering threw, the server's error (or "Error") on a failed status, and otherwise the header plus the lines |
| Reports.AppendLines | components/tabs/ReportsTab.tsx:25-35 | the `text +=` loop appends every line followed by a line feed |
| Reports.UpperNoNewline | components/tabs/ReportsTab.tsx:22 | upper-casing creates no line feed |
| Reports.IntToStringNoNewline | components/tabs/ReportsTab.tsx:26 | a rendered count holds no line feed |
| Reports.HeaderLineNoNewline | components/tabs/ReportsTab.tsx:22 | the header is a single line |
| Reports.CountTextNoNewline | components/tabs/ReportsTab.tsx:30 | a rendered count holds no line feed |
| Reports.EntryLinesSingle | components/tabs/ReportsTab.tsx:25-27 | keys without line feeds give tasks-report lines without line feeds |
| Reports.IndexLinesSingle | components/tabs/ReportsTab.tsx:25-27 | the lines over an array hold no line feed |
| Reports.ProjectLinesSingle | components/tabs/ReportsTab.tsx:29-31 | names without line feeds give project lines without line feeds |
| Reports.UserLinesSingle | components/tabs/ReportsTab.tsx:33-35 | user names without line feeds give user lines without line feeds |
| Reports.ReportLinesSingle | components/tabs/ReportsTab.tsx:23-36 | data without line feeds gives report lines without line feeds |
| Reports.ReportTextSplit | components/tabs/ReportsTab.tsx:22-37 | read line by line, a report is its header line, a blank line, its lines in order, and a final empty piece |
| Reports.TerminatedSplit | components/tabs/ReportsTab.tsx:25-35 | line-feed terminated lines read back as the lines and a final empty piece |
| Reports.UnexpectedShapeGivesHeader | components/tabs/ReportsTab.tsx:22-37 | data of the wrong shape for the report gives the header alone |
| Reports.HeaderLines | components/tabs/ReportsTab.tsx:22 | the headers read "=== REPORTE: TASKS ===", "=== REPORTE: PROJECTS ===" and "=== REPORTE: USERS ===" |
| Reports.GeneratedReportLines | components/tabs/ReportsTab.tsx:13-43 | an ok reply with single-line data shows the header line, a blank line, and one line per entry in order |
| Reports.SplitAtBlankLine | components/tabs/ReportsTab.tsx:47 | text, a blank line and more text read as the two texts' lines with an empty line between |
| Reports.ExportNoteOneLine | components/tabs/ReportsTab.tsx:47 | the export note is one line |
| Reports.Exported | components/tabs/ReportsTab.tsx:47 | exporting keeps the previous output as a prefix and appends a blank line and the note, or shows the note alone on an empty output |
| Reports.ExportedSplit | components/tabs/ReportsTab.tsx:47 | line by line, exporting keeps every earlier line and adds a blank line and the note |
| Reports.ReportsTab.constructor | components/tabs/ReportsTab.tsx:10-11 | the output starts empty and not loading |
| Reports.ReportsTab.Generate | components/tabs/ReportsTab.tsx:13-43 | requests the report's address, shows the output the reply produces, and leaves `loading` off |
| Reports.ReportsTab.ExportCSV | components/tabs/ReportsTab.tsx:45-48 | opens the CSV export address and appends the export note to the output |
| Notifications.BulletParts | components/tabs/NotificationsTab.tsx:30 | a bullet line is "• [", the type, "] ", the message, " (", the date and ")", each recoverable at its place |
| Notifications.NotificationLines | components/tabs/NotificationsTab.tsx:26-32 | the lines are the heading and a blank line, then one bullet per notification in order, or the single "No hay notificaciones nuevas" line |
| Notifications.NotificationText | components/tabs/NotificationsTab.tsx:33 | the text starts with the heading; `NotificationTextLines` reads the joined lines back |
| Notifications.ErrorOf | components/tabs/NotificationsTab.tsx:21 | `d.error` of an object body; an array body has none |
| Notifications.ListOf | components/tabs/NotificationsTab.tsx:24 | a body that is not an array counts as an empty list |
| Notifications.CollectLines | components/tabs/NotificationsTab.tsx:26-32 | the `push` loop collects exactly those lines |
| Notifications.NotificationLinesSingle | components/tabs/NotificationsTab.tsx:26-32 | notifications without line feeds give lines without line feeds |
| Notifications.NotificationTextLines | components/tabs/NotificationsTab.tsx:26-33 | read line by line, the output is exactly the collected lines |
| Notifications.NotificationLineCount | components/tabs/NotificationsTab.tsx:26-33 | the output has 2 + n lines for n notifications, and 3 when there are none |
| Notifications.NotificationTextUnterminated | components/tabs/NotificationsTab.tsx:33 | the output does not end with a line feed |
| Notifications.NotificationsTab.constructor | components/tabs/NotificationsTab.tsx:13-14 | the tab starts with no notifications and an empty output |
| Notifications.NotificationsTab.Load | components/tabs/NotificationsTab.tsx:16-37 | an ok reply replaces the list and renders it; a failed status shows the server's error (or "Error") and a rejection the connection message, both keeping the list |
| Login.LoginRequest | components/LoginForm.tsx:16-25 | the check refuses with "Usuario y contraseña requeridos" exactly when the trimmed username or the password is empty; otherwise it sends the trimmed username and the password as typed |
| Login.RefusedUsernames | components/LoginForm.tsx:16 | with a password given, a username is refused exactly when it is all white space |
| Login.SpacePasswordAccepted | components/LoginForm.tsx:16 | a password of white space only passes and is sent unchanged |
| Login.SentUsernameTrimmed | components/LoginForm.tsx:25 | the sent username has no white space at either end, is unchanged by trimming, and only white space was cut from the typed one |
| Login.LoginForm.constructor | components/LoginForm.tsx:8-11 | the form starts with "admin"/"admin", no error and not loading |
| Login.LoginForm.Submit | components/LoginForm.tsx:13-38 | the error is cleared, a refused check sends nothing, an accepted one sends the normalised credentials and ends with `loading` off; the reply sets the error or calls `onLogin` |

## Left out

- `lib/auth.ts` (password hashing and session tokens) is not part of this model. Its substance is in bcrypt and JOSE, which are not visible here.
- The network is not modelled. Each `fetch` and `r.json()` pair is the `Reply` parameter of a handler. `alert` and `window.open` become returned values. The `confirm` dialog and the `onLogin` callback become a function parameter and a returned record.
- The interleaving of the asynchronous handlers is not modelled. Each handler runs as one step on the state it starts from.
- The task tab's `load` (TasksTab.tsx:40-57) is not modelled, nor the reload it does after a successful add, update or remove. The task list is a field that the model does not refill. The projects, users and loading state of that tab are left out.
- `new Date(...)` and the current time are parameters. `parse` returns a timestamp, or `None` for an Invalid Date. `now` is an integer.
- `String(number)` on estimated hours is a parameter, and `parseFloat` is not applied. The payload carries the hours field's text.
- Tasks.SaveSelectedTaskSchedule: assumes `String(hours)` is never empty for a non-zero estimate, which holds for JavaScript numbers.
- Percent-encoding of the search query string is not modelled. The query is the ordered list of pairs. A `NaN` project id from `parseInt` is not modelled: the id is an integer.
- `Object.entries` order is taken as the given order of the entries. A tasks report's values are integer numbers. List elements are objects, so none is `null` or a primitive.
- Project and user counts in the list reports are integers or missing. A count that is a fraction or some other JSON value is not modelled.
- A decoded body that is JSON `null` is not modelled. In the source, reading `d.error`, `d.data` or `d.user` from it throws. The reports, notifications and login handlers then show "Error de conexión". In the task handlers the rejection goes unhandled and no alert appears.
- A member whose value is `null` is not modelled. This covers a report row's name, username or count, and a notification's message, type or date; a template literal renders each as "null". `Reports.Field` covers only a missing member, which renders as "undefined", and `Notifications.Notification` holds plain strings.
- In the task handlers, `add` and `update` read the body only on a failed status, and `remove` never reads it. An ok reply whose body is not JSON therefore still clears the form and alerts success. The model has that reply as `Received(true, _)`, whose body is ignored.
- An `onLogin` callback that throws is not modelled. In the source, the `catch` then sets "Error de conexión". The model only records the call.
- Text.Upper: upper-cases ASCII letters only. The report type names are ASCII, so this is exact where it is used.
- `NotificationsTab.markRead`, the form `onChange` setters, the JSX rendering, and the remaining components are not modelled.

=== FILE: login.dfy ===
/** The login form (components/LoginForm.tsx): the check made before anything is sent, the
    credentials that are sent, and how the reply sets the error and calls back. */
module Login {
  import opened Wrappers
  import opened Text

  /** The user the server returns on success. */
  datatype User = User(id: int, username: string)

  /** The JSON body of the login request. */
  datatype Credentials = Credentials(username: string, password: string)

  /** A decoded login reply: `user` on success, `error` on refusal. */
  datatype LoginBody = LoginBody(user: Option<User>, error: Option<string>)

  /** Whether `onLogin` was called, and with what (`d.user` may be `undefined`). */
  datatype Callback = NotCalled | OnLogin(user: Option<User>)

  const REQUIRED := "Usuario y contraseña requeridos"
  const LOGIN_FAILED := "Error al iniciar sesión"

  /** The pre-submit check and normalisation: the username must have a non-space
      character and the password must not be empty; the trimmed username and the
      password exactly as typed are sent. */
  function LoginRequest(username: string, password: string): (r: Result<Credentials, string>)
    ensures r.Err? <==> Trim(username) == "" || password == ""
    ensures r.Err? ==> r.error == REQUIRED
    ensures r.Ok? ==> r.value.username == Trim(username) && r.value.password == password
  {
    if Trim(username) == "" || password == "" then Err(REQUIRED)
    else Ok(Credentials(Trim(username), password))
  }

  /** Only a username made of white space alone (or nothing) is refused for its content. */
  lemma RefusedUsernames(username: string, password: string)
    requires password != ""
    ensures LoginRequest(username, password).Err? <==> forall i :: 0 <= i < |username| ==> IsSpace(username[i])
  {
    TrimEmptyIffAllSpace(username);
  }

  /** The password is not trimmed: one made only of white space is accepted and sent as it is. */
  lemma SpacePasswordAccepted(username: string, password: string)
    requires Trim(username) != ""
    requires password != "" && forall i :: 0 <= i < |password| ==> IsSpace(password[i])
    ensures LoginRequest(username, password) == Ok(Credentials(Trim(username), password))
  {
  }

  /** The username that is sent has no white space at either end, and trimming it again
      changes nothing; what was cut from either end of the typed username is white space. */
  lemma SentUsernameTrimmed(username: string, password: string)
    requires LoginRequest(username, password).Ok?
    ensures var u := LoginRequest(username, password).value.username;
      && u != [] && !IsSpace(u[0]) && !IsSpace(u[|u| - 1])
      && Trim(u) == u
      && (forall i :: 0 <= i < LeadingSpaces(username) ==> IsSpace(username[i]))
      && (forall i :: LeadingSpaces(username) + |u| <= i < |username| ==> IsSpace(username[i]))
  {
    TrimIdempotent(username);
    TrimRemovesOnlySpace(username);
  }

  /** The state of the form. */
  class LoginForm {
    var username: string
    var password: string
    var error: string
    var loading: bool

    constructor ()
      ensures username == "admin" && password == "admin" && error == "" && !loading
    {
      username, password, error, loading := "admin", "admin", "", false;
    }

    /** `submit`: the credentials sent (none when the check refuses), and the callback
        made. The error is cleared first; a refused check sets the required-fields
        message; a rejected request sets the server's error or the login-failed message; a
        failure to fetch or decode sets the connection message; `loading` is off after
        every attempt that was sent. The fields typed into are not changed. */
    method Submit(reply: Reply<LoginBody>) returns (sent: Option<Credentials>, callback: Callback)
      modifies this`error, this`loading
      ensures LoginRequest(username, password).Err? ==>
        sent == None && callback == NotCalled && error == REQUIRED && loading == old(loading)
      ensures LoginRequest(username, password).Ok? ==>
        sent == Some(LoginRequest(username, password).value) && !loading
      ensures sent.Some? && reply.Received? && reply.ok ==> error == "" && callback == OnLogin(reply.body.user)
      ensures sent.Some? && reply.Received? && !reply.ok ==>
        error == OrElse(reply.body.error, LOGIN_FAILED) && callback == NotCalled
      ensures sent.Some? && reply.Failed? ==> error == CONNECTION_ERROR && callback == NotCalled
    {
      error := "";
      callback := NotCalled;
      var request := LoginRequest(username, password);
      if request.Err? {
        error := request.error;
        sent := None;
        return;
      }
      loading := true;
      sent := Some(request.value);
      match reply {
        case Failed =>
          error := CONNECTION_ERROR;
        case Received(ok, body) =>
          if !ok {
            error := OrElse(body.error, LOGIN_FAILED);
          } else {
            callback := OnLogin(body.user);
          }
      }
      loading := false;
    }
  }
}

=== FILE: notifications.dfy ===
/** The notifications tab (components/tabs/NotificationsTab.tsx): the notification list
    becomes a block of text, one bullet line per notification under a heading. */
module Notifications {
  import opened Wrappers
  import opened Text

  /** A notification as the server sends it; `kind` is its `type` member. */
  datatype Notification = Notification(id: int, message: string, kind: string, createdAt: string)

  /** A decoded reply: an array of notifications, or an object with an optional `error`. */
  datatype NotificationsBody = Items(items: seq<Notification>) | Object(error: Option<string>)

  const HEADING := "=== NOTIFICACIONES ==="
  const NONE_NEW := "No hay notificaciones nuevas"

  /** The bullet line of one notification. */
  function Bullet(n: Notification): string
  {
    "• [" + n.kind + "] " + n.message + " (" + n.createdAt + ")"
  }

  /** A bullet line reads as "• [", the type, "] ", the message, " (", the date and ")",
      each of which can be cut back out at its place. */
  lemma BulletParts(n: Notification)
    ensures var r := Bullet(n);
      var k, m := |n.kind|, |n.message|;
      && |r| == k + m + |n.createdAt| + 8
      && r[..3] == "• [" && r[3..3 + k] == n.kind && r[3 + k..5 + k] == "] "
      && r[5 + k..5 + k + m] == n.message && r[5 + k + m..7 + k + m] == " ("
      && r[7 + k + m..|r| - 1] == n.createdAt && r[|r| - 1] == ')'
  {
  }

  /** The lines `load` collects: the heading, a blank line, then either one bullet per
      notification in list order or the "nothing new" line. */
  function NotificationLines(ns: seq<Notification>): (r: seq<string>)
    ensures |r| >= 3 && r[0] == HEADING && r[1] == ""
    ensures |ns| == 0 ==> r == [HEADING, "", NONE_NEW]
    ensures |ns| > 0 ==> |r| == 2 + |ns| && forall i :: 0 <= i < |ns| ==> r[2 + i] == Bullet(ns[i])
  {
    if |ns| == 0 then [HEADING, "", NONE_NEW]
    else [HEADING, ""] + seq(|ns|, i requires 0 <= i < |ns| => Bullet(ns[i]))
  }

  /** The text `load` shows: the lines joined with line feeds. */
  function NotificationText(ns: seq<Notification>): (r: string)
    ensures |HEADING| <= |r| && r[..|HEADING|] == HEADING
  {
    Join(NotificationLines(ns), '\n')
  }

  /** The list `load` keeps: the reply's array, or nothing when the body is not an array. */
  function ListOf(body: NotificationsBody): (r: seq<Notification>)
    ensures body.Items? ==> r == body.items
    ensures body.Object? ==> r == []
  {
    if body.Items? then body.items else []
  }

  /** The `error` member of a reply body; an array has none. */
  function ErrorOf(body: NotificationsBody): (r: Option<string>)
    ensures body.Items? ==> r.None?
    ensures body.Object? ==> r == body.error
  {
    if body.Object? then body.error else None
  }

  /** `load`'s line building: start from the heading and a blank line and `push` one line
      at a time. */
  method CollectLines(ns: seq<Notification>) returns (lines: seq<string>)
    ensures lines == NotificationLines(ns)
  {
    lines := [HEADING, ""];
    if |ns| == 0 {
      lines := lines + [NONE_NEW];
    } else {
      var i := 0;
      while i < |ns|
        invariant 0 <= i <= |ns|
        invariant |lines| == 2 + i && lines[0] == HEADING && lines[1] == ""
        invariant forall j :: 0 <= j < i ==> lines[2 + j] == Bullet(ns[j])
      {
        lines := lines + [Bullet(ns[i])];
        i := i + 1;
      }
    }
  }

  /** No message, type or date holds a line feed. */
  predicate SingleLine(ns: seq<Notification>)
  {
    forall i :: 0 <= i < |ns| ==> '\n' !in ns[i].message && '\n' !in ns[i].kind && '\n' !in ns[i].createdAt
  }

  /** Every collected line is one line when the notifications are. */
  lemma NotificationLinesSingle(ns: seq<Notification>)
    requires SingleLine(ns)
    ensures var ls := NotificationLines(ns); forall i :: 0 <= i < |ls| ==> '\n' !in ls[i]
  {
    var ls := NotificationLines(ns);
    forall i | 0 <= i < |ls| ensures '\n' !in ls[i] {
      if 2 <= i && |ns| > 0 {
        assert ls[i] == Bullet(ns[i - 2]);
      }
    }
  }

  /** Read back line by line, the text is exactly the collected lines: the heading, a
      blank line, then the bullets or the "nothing new" line. */
  lemma NotificationTextLines(ns: seq<Notification>)
    requires SingleLine(ns)
    ensures Split(NotificationText(ns), '\n') == NotificationLines(ns)
  {
    NotificationLinesSingle(ns);
    SplitJoin(NotificationLines(ns), '\n');
  }

  /** The text has two lines more than there are notifications, and three when there are
      none. */
  lemma NotificationLineCount(ns: seq<Notification>)
    requires SingleLine(ns)
    ensures |Split(NotificationText(ns), '\n')| == 2 + (if |ns| == 0 then 1 else |ns|)
  {
    NotificationTextLines(ns);
  }

  /** The text ends with its last line, which is never empty, so it does not end with a
      line feed. */
  lemma NotificationTextUnterminated(ns: seq<Notification>)
    ensures var t := NotificationText(ns); |t| > 0 && t[|t| - 1] != '\n'
  {
    var ls := NotificationLines(ns);
    var last := ls[|ls| - 1];
    JoinEndsWithLast(ls, '\n');
    var t := NotificationText(ns);
    assert last[|last| - 1] == t[|t| - 1];
    if |ns| > 0 {
      assert last == Bullet(ns[|ns| - 1]);
    }
  }

  /** The state of the tab: the notification list and the output text. */
  class NotificationsTab {
    var notifications: seq<Notification>
    var output: string

    constructor ()
      ensures notifications == [] && output == ""
    {
      notifications, output := [], "";
    }

    /** `load`: a successful reply replaces the list and renders it; a rejected request
        shows the server's error (or "Error") and keeps the list; a failure to fetch or
        decode shows the connection message and keeps the list. */
    method Load(reply: Reply<NotificationsBody>)
      modifies this
      ensures reply.Received? && reply.ok ==>
        notifications == ListOf(reply.body) && output == NotificationText(ListOf(reply.body))
      ensures reply.Received? && !reply.ok ==>
        notifications == old(notifications) && output == OrElse(ErrorOf(reply.body), "Error")
      ensures reply.Failed? ==> notifications == old(notifications) && output == CONNECTION_ERROR
    {
      match reply {
        case Failed =>
          output := CONNECTION_ERROR;
        case Received(ok, body) =>
          if !ok {
            output := OrElse(ErrorOf(body), "Error");
          } else {
            var arr := ListOf(body);
            notifications := arr;
            var lines := CollectLines(arr);
            output := Join(lines, '\n');
          }
      }
    }
  }
}

=== FILE: reports.dfy ===
/** The reports tab (components/tabs/ReportsTab.tsx): a report reply becomes a block of text
    with a header line, a blank line and one line per entry; exporting appends a note. */
module Reports {
  import opened Wrappers
  import opened Text

  /** The three reports the tab can ask for. */
  datatype ReportType = TasksReport | ProjectsReport | UsersReport

  /** The name of a report as it appears in the query and the header. */
  function TypeName(t: ReportType): (r: string)
    ensures |r| >= 5 && forall i :: 0 <= i < |r| ==> 'a' <= r[i] <= 'z'
  {
    match t
    case TasksReport => "tasks"
    case ProjectsReport => "projects"
    case UsersReport => "users"
  }

  /** The three report types go under three different names. */
  lemma TypeNamesDistinct(a: ReportType, b: ReportType)
    ensures TypeName(a) == TypeName(b) <==> a == b
  {
    if a != b {
      assert TypeName(a)[0] != TypeName(b)[0];
    }
  }

  /** One `[key, value]` pair of `Object.entries` on a tasks report. */
  datatype Entry = Entry(key: string, value: int)

  /** An element of a list report; a field the server left out is `None`. */
  datatype Row = Row(name: Option<string>, username: Option<string>, count: Option<int>)

  /** The `data` member of a report reply, as far as the tab inspects it: a plain object
      (its entries in `Object.entries` order), an array of objects, `null`, or a value that
      is not an object (a string, a number, a boolean, or `undefined`). */
  datatype Data = Record(entries: seq<Entry>) | Rows(rows: seq<Row>) | Null | Scalar

  /** A decoded report reply: its `error` member and its `data` member. */
  datatype ReportBody = ReportBody(error: Option<string>, data: Data)

  const EXPORT_NOTE := "Exportado a export_tasks.csv"

  /** A template literal's rendering of a string member that may be `undefined`. */
  function Field(o: Option<string>): (r: string)
    ensures o.Some? ==> r == o.value
    ensures o.None? ==> r == "undefined"
  {
    OrElse(o, "undefined")
  }

  /** A template literal's rendering of a number member that may be `undefined`. */
  function CountText(c: Option<int>): (r: string)
    ensures c.Some? ==> r == IntToString(c.value)
    ensures c.None? ==> r == "undefined"
  {
    match c
    case Some(n) => IntToString(n)
    case None => "undefined"
  }

  /** The first line of every report. */
  function HeaderLine(t: ReportType): (r: string)
    ensures |r| == 17 + |TypeName(t)|
    ensures r[..13] == "=== REPORTE: " && r[13..|r| - 4] == Upper(TypeName(t)) && r[|r| - 4..] == " ==="
  {
    "=== REPORTE: " + Upper(TypeName(t)) + " ==="
  }

  /** The text a report starts from: the header line and a blank line. */
  function Header(t: ReportType): (r: string)
    ensures |r| == |HeaderLine(t)| + 2
    ensures r[..|r| - 2] == HeaderLine(t) && r[|r| - 2..] == "\n\n"
  {
    HeaderLine(t) + "\n\n"
  }

  function TaskLine(key: string, value: string): string
  {
    key + ": " + value + " tareas"
  }

  /** One line of the projects report: shaped like a tasks-report line. */
  function ProjectLine(r: Row): (line: string)
    ensures line == TaskLine(Field(r.name), CountText(r.count))
  {
    Field(r.name) + ": " + CountText(r.count) + " tareas"
  }

  /** One line of the users report: a tasks-report line with " asignadas" after it. */
  function UserLine(r: Row): (line: string)
    ensures line == TaskLine(Field(r.username), CountText(r.count)) + " asignadas"
  {
    Field(r.username) + ": " + CountText(r.count) + " tareas asignadas"
  }

  /** A tasks-report line reads as the key, ": ", the value and " tareas", each of which
      can be cut back out at its place. */
  lemma TaskLineParts(key: string, value: string)
    ensures var r := TaskLine(key, value);
      && |r| == |key| + |value| + 9
      && r[..|key|] == key && r[|key|..|key| + 2] == ": "
      && r[|key| + 2..|r| - 7] == value && r[|r| - 7..] == " tareas"
  {
  }

  /** The tasks report's lines over an object: "key: value tareas" per entry, in order. */
  function EntryLines(es: seq<Entry>): (r: seq<string>)
    ensures |r| == |es|
    ensures forall i :: 0 <= i < |r| ==> r[i] == es[i].key + ": " + IntToString(es[i].value) + " tareas"
  {
    seq(|es|, i requires 0 <= i < |es| => TaskLine(es[i].key, IntToString(es[i].value)))
  }

  /** The tasks report's lines over an array of `n` objects: `Object.entries` gives the
      indices as keys and each element renders as "[object Object]". */
  function IndexLines(n: nat): (r: seq<string>)
    ensures |r| == n
    ensures forall i :: 0 <= i < |r| ==> r[i] == NatToString(i) + ": [object Object] tareas"
  {
    seq(n, i requires 0 <= i < n => TaskLine(NatToString(i), "[object Object]"))
  }

  /** The projects report's lines: "name: count tareas" per element, in order. */
  function ProjectLines(rs: seq<Row>): (r: seq<string>)
    ensures |r| == |rs|
    ensures forall i :: 0 <= i < |r| ==> r[i] == Field(rs[i].name) + ": " + CountText(rs[i].count) + " tareas"
  {
    seq(|rs|, i requires 0 <= i < |rs| => ProjectLine(rs[i]))
  }

  /** The users report's lines: "username: count tareas asignadas" per element, in order. */
  function UserLines(rs: seq<Row>): (r: seq<string>)
    ensures |r| == |rs|
    ensures forall i :: 0 <= i < |r| ==> r[i] == Field(rs[i].username) + ": " + CountText(rs[i].count) + " tareas asignadas"
  {
    seq(|rs|, i requires 0 <= i < |rs| => UserLine(rs[i]))
  }

  /** The lines `generate` appends for a report of type `t`, in data order; `None` when
      `Object.entries` throws, which happens for a tasks report whose data is `null`
      (`typeof null` is "object"). */
  function ReportLines(t: ReportType, data: Data): (r: Option<seq<string>>)
    ensures r.None? <==> t.TasksReport? && data.Null?
    ensures r.Some? && (data.Null? || data.Scalar? || (!t.TasksReport? && data.Record?)) ==> r.value == []
    ensures t.TasksReport? && data.Record? ==> r == Some(EntryLines(data.entries))
    ensures t.TasksReport? && data.Rows? ==> r == Some(IndexLines(|data.rows|))
    ensures t.ProjectsReport? && data.Rows? ==> r == Some(ProjectLines(data.rows))
    ensures t.UsersReport? && data.Rows? ==> r == Some(UserLines(data.rows))
  {
    match t
    case TasksReport =>
      (match data
       case Record(es) => Some(EntryLines(es))
       case Rows(rs) => Some(IndexLines(|rs|))
       case Null => None
       case Scalar => Some([]))
    case ProjectsReport => if data.Rows? then Some(ProjectLines(data.rows)) else Some([])
    case UsersReport => if data.Rows? then Some(UserLines(data.rows)) else Some([])
  }

  /** The whole report text: the header, then every line followed by a line feed. */
  function ReportText(t: ReportType, lines: seq<string>): (r: string)
    ensures |Header(t)| <= |r| && r[..|Header(t)|] == Header(t)
    ensures |r| >= |Header(t)| + |lines|
    ensures r[|r| - 1] == '\n'
  {
    Header(t) + Terminated(lines)
  }

  /** What the output shows after `generate`: the report, the server's error (or "Error")
      for a rejected request, and the connection message when the request or the rendering
      threw. */
  function OutputOf(t: ReportType, reply: Reply<ReportBody>): (r: string)
    ensures reply.Failed? ==> r == CONNECTION_ERROR
    ensures reply.Received? && !reply.ok ==> r == OrElse(reply.body.error, "Error")
    ensures reply.Received? && reply.ok && ReportLines(t, reply.body.data).Some?
      ==> r == ReportText(t, ReportLines(t, reply.body.data).value)
    ensures reply.Received? && reply.ok && ReportLines(t, reply.body.data).None? ==> r == CONNECTION_ERROR
  {
    match reply
    case Failed => CONNECTION_ERROR
    case Received(ok, body) =>
      if !ok then OrElse(body.error, "Error")
      else
        match ReportLines(t, body.data)
        case None => CONNECTION_ERROR
        case Some(lines) => ReportText(t, lines)
  }

  /** The `forEach` of `generate`: `text += line + "\n"` for each line in turn. */
  method AppendLines(start: string, lines: seq<string>) returns (text: string)
    ensures text == start + Terminated(lines)
  {
    text := start;
    var i := 0;
    while i < |lines|
      invariant 0 <= i <= |lines|
      invariant text == start + Terminated(lines[..i])
    {
      assert lines[..i + 1][..i] == lines[..i];
      text := text + lines[i] + "\n";
      i := i + 1;
    }
    assert lines[..i] == lines;
  }

  /** `toUpperCase` leaves line feeds where they are and makes none. */
  lemma UpperNoNewline(s: string)
    requires '\n' !in s
    ensures '\n' !in Upper(s)
  {
    forall i | 0 <= i < |s| ensures Upper(s)[i] != '\n' {
      assert s[i] != '\n';
    }
  }

  /** A decimal number has no line feed. */
  lemma IntToStringNoNewline(n: int)
    ensures '\n' !in IntToString(n)
  {
    var d := NatToString(if n < 0 then -n else n);
    assert forall i :: 0 <= i < |d| ==> d[i] != '\n';
  }

  /** The header line is one line. */
  lemma HeaderLineNoNewline(t: ReportType)
    ensures '\n' !in HeaderLine(t)
  {
    UpperNoNewline(TypeName(t));
  }

  /** No key, name or user name of the data holds a line feed. */
  predicate SingleLineData(data: Data)
  {
    match data
    case Record(es) => forall i :: 0 <= i < |es| ==> '\n' !in es[i].key
    case Rows(rs) => forall i :: 0 <= i < |rs| ==> '\n' !in Field(rs[i].name) && '\n' !in Field(rs[i].username)
    case Null => true
    case Scalar => true
  }

  /** A rendered count holds no line feed. */
  lemma CountTextNoNewline(c: Option<int>)
    ensures '\n' !in CountText(c)
  {
    if c.Some? {
      IntToStringNoNewline(c.value);
    }
  }

  /** No line of a tasks report over an object holds a line feed when no key does. */
  lemma EntryLinesSingle(es: seq<Entry>)
    requires forall i :: 0 <= i < |es| ==> '\n' !in es[i].key
    ensures var ls := EntryLines(es); forall i :: 0 <= i < |ls| ==> '\n' !in ls[i]
  {
    forall i | 0 <= i < |es| ensures '\n' !in EntryLines(es)[i] {
      IntToStringNoNewline(es[i].value);
    }
  }

  /** No line of a tasks report over an array holds a line feed. */
  lemma IndexLinesSingle(n: nat)
    ensures var ls := IndexLines(n); forall i :: 0 <= i < |ls| ==> '\n' !in ls[i]
  {
    forall i | 0 <= i < n ensures '\n' !in IndexLines(n)[i] {
      IntToStringNoNewline(i);
    }
  }

  /** No line of a projects report holds a line feed when no name does. */
  lemma ProjectLinesSingle(rs: seq<Row>)
    requires forall i :: 0 <= i < |rs| ==> '\n' !in Field(rs[i].name)
    ensures var ls := ProjectLines(rs); forall i :: 0 <= i < |ls| ==> '\n' !in ls[i]
  {
    forall i | 0 <= i < |rs| ensures '\n' !in ProjectLines(rs)[i] {
      CountTextNoNewline(rs[i].count);
      assert ProjectLines(rs)[i] == ProjectLine(rs[i]);
    }
  }

  /** No line of a users report holds a line feed when no user name does. */
  lemma UserLinesSingle(rs: seq<Row>)
    requires forall i :: 0 <= i < |rs| ==> '\n' !in Field(rs[i].username)
    ensures var ls := UserLines(rs); forall i :: 0 <= i < |ls| ==> '\n' !in ls[i]
  {
    forall i | 0 <= i < |rs| ensures '\n' !in UserLines(rs)[i] {
      CountTextNoNewline(rs[i].count);
      assert UserLines(rs)[i] == UserLine(rs[i]);
    }
  }

  /** Single-line data gives single-line report lines. */
  lemma ReportLinesSingle(t: ReportType, data: Data)
    requires SingleLineData(data) && ReportLines(t, data).Some?
    ensures var ls := ReportLines(t, data).value; forall i :: 0 <= i < |ls| ==> '\n' !in ls[i]
  {
    if data.Record? && t.TasksReport? {
      EntryLinesSingle(data.entries);
    } else if data.Rows? && t.TasksReport? {
      IndexLinesSingle(|data.rows|);
    } else if data.Rows? && t.ProjectsReport? {
      ProjectLinesSingle(data.rows);
    } else if data.Rows? && t.UsersReport? {
      UserLinesSingle(data.rows);
    }
  }

  /** Read line by line, a report is its header line, a blank line, its lines in order, and
      the empty piece after the final line feed. */
  lemma {:induction false} ReportTextSplit(t: ReportType, lines: seq<string>)
    requires forall i :: 0 <= i < |lines| ==> '\n' !in lines[i]
    ensures Split(ReportText(t, lines), '\n') == [HeaderLine(t), ""] + lines + [""]
  {
    TerminatedSplit(lines);
    HeaderLineNoNewline(t);
    SplitWithoutSeparator(HeaderLine(t), '\n');
    SplitAtBlankLine(HeaderLine(t), Terminated(lines));
  }

  /** Line-feed terminated single lines read back as the lines and a final empty piece. */
  lemma TerminatedSplit(lines: seq<string>)
    requires forall i :: 0 <= i < |lines| ==> '\n' !in lines[i]
    ensures Split(Terminated(lines), '\n') == lines + [""]
  {
    TerminatedIsJoin(lines);
    var ls := lines + [""];
    assert forall i :: 0 <= i < |ls| ==> '\n' !in ls[i];
    SplitJoin(ls, '\n');
  }

  /** Data that does not have the shape the report expects leaves the header alone: a list
      report whose data is not an array, or a tasks report whose data is not an object. */
  lemma UnexpectedShapeGivesHeader(t: ReportType, body: ReportBody)
    requires if t.TasksReport? then body.data.Scalar? else !body.data.Rows?
    ensures OutputOf(t, Received(true, body)) == Header(t)
  {
    assert ReportLines(t, body.data) == Some([]);
    assert Terminated([]) == "";
  }

  /** The header names the report in capitals. */
  lemma HeaderLines()
    ensures HeaderLine(TasksReport) == "=== REPORTE: TASKS ==="
    ensures HeaderLine(ProjectsReport) == "=== REPORTE: PROJECTS ==="
    ensures HeaderLine(UsersReport) == "=== REPORTE: USERS ==="
  {
  }

  /** A successful reply with single-line data reads, line by line, as the header line, a
      blank line, one line per entry or element, and the empty piece after the last line feed. */
  lemma GeneratedReportLines(t: ReportType, body: ReportBody)
    requires SingleLineData(body.data) && ReportLines(t, body.data).Some?
    ensures Split(OutputOf(t, Received(true, body)), '\n')
      == [HeaderLine(t), ""] + ReportLines(t, body.data).value + [""]
  {
    ReportLinesSingle(t, body.data);
    ReportTextSplit(t, ReportLines(t, body.data).value);
  }

  /** `exportCSV`'s new output: the note after a blank line, or the note alone when the
      output was empty. */
  function Exported(prev: string): (r: string)
    ensures prev == "" ==> r == EXPORT_NOTE
    ensures prev != "" ==> |prev| < |r| && r[..|prev|] == prev && r[|prev|..] == "\n\n" + EXPORT_NOTE
  {
    if prev != "" then prev + "\n\n" + EXPORT_NOTE else EXPORT_NOTE
  }

  /** Text, a blank line and more text read as the first text's lines, an empty line and
      the second text's lines. */
  lemma {:induction false} SplitAtBlankLine(a: string, b: string)
    ensures Split(a + "\n\n" + b, '\n') == Split(a, '\n') + [""] + Split(b, '\n')
  {
    assert a + "\n\n" + b == a + ['\n'] + ([] + ['\n'] + b);
    SplitAtSeparator(a, '\n', [] + ['\n'] + b);
    SplitAtSeparator([], '\n', b);
  }

  /** The export note is a single line. */
  lemma ExportNoteOneLine()
    ensures Split(EXPORT_NOTE, '\n') == [EXPORT_NOTE]
  {
    SplitWithoutSeparator(EXPORT_NOTE, '\n');
  }

  /** Read line by line, exporting keeps every earlier line and adds a blank line and the
      note; on an empty output the note is the only line. */
  lemma ExportedSplit(prev: string)
    ensures Split(Exported(prev), '\n')
      == if prev == "" then [EXPORT_NOTE] else Split(prev, '\n') + ["", EXPORT_NOTE]
  {
    ExportNoteOneLine();
    if prev != "" {
      SplitAtBlankLine(prev, EXPORT_NOTE);
    }
  }

  /** The state of the tab. */
  class ReportsTab {
    var output: string
    var loading: bool

    constructor ()
      ensures output == "" && !loading
    {
      output, loading := "", false;
    }

    /** `generate(type)`: the address asked for, and the output the reply produces; the
        `finally` block leaves `loading` off whatever happened. */
    method Generate(t: ReportType, reply: Reply<ReportBody>) returns (url: string)
      modifies this
      ensures url == "/api/reports?type=" + TypeName(t)
      ensures output == OutputOf(t, reply)
      ensures !loading
    {
      loading := true;
      url := "/api/reports?type=" + TypeName(t);
      match reply {
        case Failed =>
          output := CONNECTION_ERROR;
        case Received(ok, body) =>
          if !ok {
            output := OrElse(body.error, "Error");
          } else {
            var lines := ReportLines(t, body.data);
            if lines.None? {
              output := CONNECTION_ERROR;
            } else {
              output := AppendLines(Header(t), lines.value);
            }
          }
      }
      loading := false;
    }

    /** `exportCSV`: the address opened, and the output with the export note. */
    method ExportCSV() returns (url: string)
      modifies this`output
      ensures url == "/api/export/csv"
      ensures output == Exported(old(output))
    {
      url := "/api/export/csv";
      output := Exported(output);
    }
  }
}

=== FILE: search.dfy ===
/** The search tab (components/tabs/SearchTab.tsx): the filters become query parameters,
    the reply becomes the result list, and the option lists become dropdown entries. */
module Search {
  import opened Wrappers
  import opened Text

  /** The parameter names the search uses. Each constructor stands for its name under
      `KeyName`; the names are distinct strings (`KeyNamesDistinct`), so comparing keys is
      comparing names. */
  datatype Key = Q | Status | Priority | ProjectId

  /** The name each parameter is sent under. */
  function KeyName(k: Key): string
  {
    match k
    case Q => "q"
    case Status => "status"
    case Priority => "priority"
    case ProjectId => "projectId"
  }

  /** Two keys are sent under the same name only when they are the same key, so each
      `params.set` of the search writes a name no other set has written. */
  lemma KeyNamesDistinct(a: Key, b: Key)
    ensures KeyName(a) == KeyName(b) <==> a == b
  {
    if a != b {
      assert KeyName(a)[0] != KeyName(b)[0] || |KeyName(a)| != |KeyName(b)|;
    }
  }

  /** One `name=value` pair of a `URLSearchParams`, kept in insertion order. */
  datatype Param = Param(key: Key, value: string)

  /** `params.get(key)`: the value of the first pair with that key. */
  function Lookup(ps: seq<Param>, key: Key): (r: Option<string>)
    ensures r.None? <==> forall i :: 0 <= i < |ps| ==> ps[i].key != key
  {
    if ps == [] then None
    else if ps[0].key == key then Some(ps[0].value)
    else Lookup(ps[1..], key)
  }

  /** The pairs whose key differs from `key`, in order. */
  function Without(ps: seq<Param>, key: Key): (r: seq<Param>)
    ensures forall i :: 0 <= i < |r| ==> r[i].key != key
    ensures |r| <= |ps|
    ensures forall k :: k != key ==> Lookup(r, k) == Lookup(ps, k)
  {
    if ps == [] then []
    else if ps[0].key == key then Without(ps[1..], key)
    else [ps[0]] + Without(ps[1..], key)
  }

  /** `params.set(key, value)`: the first pair with that key takes the new value and the
      later ones are dropped; a new key is appended at the end. */
  function SetParam(ps: seq<Param>, key: Key, value: string): (r: seq<Param>)
    ensures Lookup(r, key) == Some(value)
    ensures forall k :: k != key ==> Lookup(r, k) == Lookup(ps, k)
  {
    if ps == [] then [Param(key, value)]
    else if ps[0].key == key then [Param(key, value)] + Without(ps[1..], key)
    else [ps[0]] + SetParam(ps[1..], key, value)
  }

  /** Setting a key that is not there yet appends it. */
  lemma {:induction false} SetParamFresh(ps: seq<Param>, key: Key, value: string)
    requires forall i :: 0 <= i < |ps| ==> ps[i].key != key
    ensures SetParam(ps, key, value) == ps + [Param(key, value)]
  {
    if ps != [] {
      SetParamFresh(ps[1..], key, value);
      assert [ps[0]] + (ps[1..] + [Param(key, value)]) == ps + [Param(key, value)];
    }
  }

  /** The single pair `key=value` when `present`, nothing otherwise. */
  function Opt(present: bool, key: Key, value: string): seq<Param>
  {
    if present then [Param(key, value)] else []
  }

  /** The query of a search, written declaratively: each filter that is set contributes one
      pair, in the order text, status, priority, project. */
  function QueryParams(q: string, status: string, priority: string, projectId: int): (r: seq<Param>)
    ensures |r| <= 4
    ensures forall i :: 0 <= i < |r| ==> r[i].value != ""
  {
    Opt(q != "", Q, q)
    + Opt(status != "", Status, status)
    + Opt(priority != "", Priority, priority)
    + Opt(projectId > 0, ProjectId, if projectId > 0 then NatToString(projectId) else "")
  }

  /** The position of each parameter in the query. */
  function Rank(key: Key): nat
  {
    match key
    case Q => 0
    case Status => 1
    case Priority => 2
    case ProjectId => 3
  }

  /** Looking a key up in two concatenated lists looks in the first one before the second. */
  lemma {:induction false} LookupAppend(a: seq<Param>, b: seq<Param>, key: Key)
    ensures Lookup(a + b, key) == if Lookup(a, key).Some? then Lookup(a, key) else Lookup(b, key)
  {
    if a == [] {
      assert a + b == b;
    } else {
      assert (a + b)[0] == a[0];
      assert (a + b)[1..] == a[1..] + b;
      LookupAppend(a[1..], b, key);
    }
  }

  /** Looking a key up in the query looks at the four optional pairs in turn. */
  lemma QueryParamsLookupSplit(q: string, status: string, priority: string, projectId: int, key: Key)
    ensures var a, b, c, d := Opt(q != "", Q, q), Opt(status != "", Status, status),
      Opt(priority != "", Priority, priority),
      Opt(projectId > 0, ProjectId, if projectId > 0 then NatToString(projectId) else "");
      Lookup(QueryParams(q, status, priority, projectId), key)
        == if Lookup(a, key).Some? then Lookup(a, key)
           else if Lookup(b, key).Some? then Lookup(b, key)
           else if Lookup(c, key).Some? then Lookup(c, key)
           else Lookup(d, key)
  {
    var a, b, c, d := Opt(q != "", Q, q), Opt(status != "", Status, status),
      Opt(priority != "", Priority, priority),
      Opt(projectId > 0, ProjectId, if projectId > 0 then NatToString(projectId) else "");
    LookupAppend(a + b + c, d, key);
    LookupAppend(a + b, c, key);
    LookupAppend(a, b, key);
  }

  /** The text filter is in the query exactly when it is set, with its value as typed. */
  lemma QueryParamsText(q: string, status: string, priority: string, projectId: int)
    ensures Lookup(QueryParams(q, status, priority, projectId), Q) == if q != "" then Some(q) else None
  {
    QueryParamsLookupSplit(q, status, priority, projectId, Q);
  }

  /** The status filter is in the query exactly when it is set, with its value as chosen. */
  lemma QueryParamsStatus(q: string, status: string, priority: string, projectId: int)
    ensures Lookup(QueryParams(q, status, priority, projectId), Status) == if status != "" then Some(status) else None
  {
    QueryParamsLookupSplit(q, status, priority, projectId, Status);
  }

  /** The priority filter is in the query exactly when it is set, with its value as chosen. */
  lemma QueryParamsPriority(q: string, status: string, priority: string, projectId: int)
    ensures Lookup(QueryParams(q, status, priority, projectId), Priority) == if priority != "" then Some(priority) else None
  {
    QueryParamsLookupSplit(q, status, priority, projectId, Priority);
  }

  /** The project filter is in the query exactly when a project is selected, written in decimal. */
  lemma QueryParamsProject(q: string, status: string, priority: string, projectId: int)
    ensures Lookup(QueryParams(q, status, priority, projectId), ProjectId)
      == if projectId > 0 then Some(NatToString(projectId)) else None
  {
    QueryParamsLookupSplit(q, status, priority, projectId, ProjectId);
  }

  /** The project id parameter reads back as the selected project. */
  lemma ProjectIdReadsBack(q: string, status: string, priority: string, projectId: int)
    requires projectId > 0
    ensures var v := Lookup(QueryParams(q, status, priority, projectId), ProjectId);
      v.Some? && (forall i :: 0 <= i < |v.value| ==> IsDigit(v.value[i])) && DigitsValue(v.value) == projectId
  {
    QueryParamsProject(q, status, priority, projectId);
    NatToStringRoundTrip(projectId);
  }

  /** The parameters come in the fixed order q, status, priority, projectId, each at most
      once, and there are none when no filter is set. */
  lemma QueryParamsOrder(q: string, status: string, priority: string, projectId: int)
    ensures var ps := QueryParams(q, status, priority, projectId);
      forall i, j :: 0 <= i < j < |ps| ==> Rank(ps[i].key) < Rank(ps[j].key)
    ensures QueryParams(q, status, priority, projectId) == []
      <==> q == "" && status == "" && priority == "" && projectId <= 0
  {
  }

  /** `search`'s parameter building: one conditional `params.set` per filter. */
  method BuildParams(q: string, status: string, priority: string, projectId: int) returns (params: seq<Param>)
    ensures params == QueryParams(q, status, priority, projectId)
  {
    params := [];
    params := SetWhen(params, q != "", Q, q);
    params := SetWhen(params, status != "", Status, status);
    params := SetWhen(params, priority != "", Priority, priority);
    params := SetWhen(params, projectId > 0, ProjectId, if projectId > 0 then NatToString(projectId) else "");
  }

  /** `if (present) params.set(key, value)` on a list that does not hold `key` yet. */
  method SetWhen(params: seq<Param>, present: bool, key: Key, value: string) returns (r: seq<Param>)
    requires Lookup(params, key).None?
    ensures r == params + Opt(present, key, value)
  {
    r := params;
    if present {
      SetParamFresh(params, key, value);
      r := SetParam(params, key, value);
    }
  }

  /** A search hit as the tab lists it. */
  datatype Hit = Hit(id: int, title: string, status: Option<string>, priority: Option<string>, projectName: Option<string>)

  /** A decoded search reply: an array of hits, or anything else. */
  datatype SearchBody = Hits(hits: seq<Hit>) | NotArray

  /** The new result list: the reply's array, or empty when the request rejected or the
      body is not an array. The status code is not consulted. */
  function ResultsOf(reply: Reply<SearchBody>): (r: seq<Hit>)
    ensures r != [] ==> reply.Received? && reply.body.Hits? && r == reply.body.hits
    ensures reply.Received? && reply.body.Hits? ==> r == reply.body.hits
  {
    match reply
    case Failed => []
    case Received(_, body) => if body.Hits? then body.hits else []
  }

  /** A project entry of the project dropdown. */
  datatype Project = Project(id: int, name: string)

  /** A decoded project list reply. */
  datatype ProjectsBody = Projects(projects: seq<Project>) | NoProjects

  /** `opts.filter(Boolean)`: the options without the empty entry, in their order. */
  function NonEmptyOptions(opts: seq<string>): (r: seq<string>)
    ensures forall x :: x in r <==> x in opts && x != ""
    ensures |r| <= |opts|
  {
    if opts == [] then []
    else if opts[0] == "" then NonEmptyOptions(opts[1..])
    else [opts[0]] + NonEmptyOptions(opts[1..])
  }

  /** Filtering keeps order: filtering a concatenation concatenates the filtered parts. */
  lemma {:induction false} NonEmptyOptionsAppend(a: seq<string>, b: seq<string>)
    ensures NonEmptyOptions(a + b) == NonEmptyOptions(a) + NonEmptyOptions(b)
  {
    if a == [] {
      assert a + b == b;
    } else {
      assert (a + b)[0] == a[0];
      assert (a + b)[1..] == a[1..] + b;
      NonEmptyOptionsAppend(a[1..], b);
    }
  }

  /** A list without the empty entry is left as it is. */
  lemma {:induction false} NonEmptyOptionsKeeps(a: seq<string>)
    requires forall i :: 0 <= i < |a| ==> a[i] != ""
    ensures NonEmptyOptions(a) == a
  {
    if a != [] {
      NonEmptyOptionsKeeps(a[1..]);
    }
  }

  const STATUS_OPTIONS: seq<string> := ["", "Pendiente", "En Progreso", "Completada"]
  const PRIORITY_OPTIONS: seq<string> := ["", "Baja", "Media", "Alta", "Crítica"]

  /** The dropdowns list the option lists without their leading empty entry. */
  lemma DropdownOptions()
    ensures NonEmptyOptions(STATUS_OPTIONS) == STATUS_OPTIONS[1..]
    ensures NonEmptyOptions(PRIORITY_OPTIONS) == PRIORITY_OPTIONS[1..]
  {
    NonEmptyOptionsKeeps(STATUS_OPTIONS[1..]);
    NonEmptyOptionsKeeps(PRIORITY_OPTIONS[1..]);
  }

  /** The state of the tab: the filter fields, the project list and the results. */
  class SearchTab {
    var q: string
    var status: string
    var priority: string
    var projectId: int
    var projects: seq<Project>
    var results: seq<Hit>

    constructor ()
      ensures q == "" && status == "" && priority == "" && projectId == 0
      ensures projects == [] && results == []
    {
      q, status, priority, projectId := "", "", "", 0;
      projects, results := [], [];
    }

    /** The mount effect: the project list, or empty when the reply is not an array or the
        request rejected. */
    method LoadProjects(reply: Reply<ProjectsBody>)
      modifies this`projects
      ensures projects == (if reply.Received? && reply.body.Projects? then reply.body.projects else [])
    {
      match reply {
        case Failed =>
          projects := [];
        case Received(_, body) =>
          projects := if body.Projects? then body.projects else [];
      }
    }

    /** `search`: the query built from the current filters, and the results of its reply. */
    method Search(reply: Reply<SearchBody>) returns (params: seq<Param>)
      modifies this`results
      ensures params == QueryParams(q, status, priority, projectId)
      ensures results == ResultsOf(reply)
    {
      params := BuildParams(q, status, priority, projectId);
      results := ResultsOf(reply);
    }
  }
}

=== FILE: tasks.dfy ===
/** The task tab (components/tabs/TasksTab.tsx): the statistics computed over the task
    list, the editing form with its selection, and the requests that Add, Update and
    Remove send once their checks pass. */
module Tasks {
  import opened Wrappers
  import opened Text

  /** A task as the task endpoint returns it; the fields the tab treats as possibly
      `null` are options. */
  datatype Task = Task(
    id: int,
    title: string,
    description: Option<string>,
    status: Option<string>,
    priority: Option<string>,
    dueDate: Option<string>,
    estimatedHours: Option<real>,
    projectId: Option<int>,
    assignedToId: Option<int>)

  // ----------------------------------------------------------------------------------
  // Statistics

  datatype Stats = Stats(total: nat, completed: nat, pending: nat, high: nat, overdue: nat)

  const COMPLETED := "Completada"

  predicate IsCompleted(t: Task)
  {
    t.status == Some(COMPLETED)
  }

  predicate IsPending(t: Task)
  {
    !IsCompleted(t)
  }

  predicate IsHighPriority(t: Task)
  {
    t.priority == Some("Alta") || t.priority == Some("Crítica")
  }

  /** An open task whose non-empty due date denotes an instant strictly before `now`.
      `parse` stands for `new Date(text)` read as a time stamp: `None` is an Invalid
      Date, which compares false with every date. */
  predicate IsOverdue(t: Task, now: int, parse: string -> Option<int>)
    ensures IsOverdue(t, now, parse) ==> IsPending(t)
    ensures t.dueDate.Some? && parse(t.dueDate.value).None? ==> !IsOverdue(t, now, parse)
  {
    && t.dueDate.Some? && t.dueDate.value != ""
    && !IsCompleted(t)
    && parse(t.dueDate.value).Some?
    && parse(t.dueDate.value).value < now
  }

  function OverdueAt(now: int, parse: string -> Option<int>): Task -> bool
  {
    t => IsOverdue(t, now, parse)
  }

  /** How many elements of `xs` satisfy `p`. */
  function Count<T>(xs: seq<T>, p: T -> bool): (n: nat)
    ensures n <= |xs|
  {
    if xs == [] then 0 else Count(xs[..|xs| - 1], p) + (if p(xs[|xs| - 1]) then 1 else 0)
  }

  /** The statistics of a task list at instant `now`. */
  function StatsOf(tasks: seq<Task>, now: int, parse: string -> Option<int>): (r: Stats)
    ensures r.total == |tasks|
    ensures r.completed <= r.total && r.pending <= r.total && r.high <= r.total && r.overdue <= r.total
  {
    Stats(|tasks|, Count(tasks, IsCompleted), Count(tasks, IsPending),
          Count(tasks, IsHighPriority), Count(tasks, OverdueAt(now, parse)))
  }

  /** No element is counted exactly when no element satisfies the predicate. */
  lemma {:induction false} CountZero<T>(xs: seq<T>, p: T -> bool)
    ensures Count(xs, p) == 0 <==> forall i :: 0 <= i < |xs| ==> !p(xs[i])
  {
    if xs != [] {
      var init := xs[..|xs| - 1];
      CountZero(init, p);
      assert forall i :: 0 <= i < |init| ==> init[i] == xs[i];
    }
  }

  /** Every element is counted exactly when every element satisfies the predicate. */
  lemma {:induction false} CountAll<T>(xs: seq<T>, p: T -> bool)
    ensures Count(xs, p) == |xs| <==> forall i :: 0 <= i < |xs| ==> p(xs[i])
  {
    if xs != [] {
      var init := xs[..|xs| - 1];
      CountAll(init, p);
      assert forall i :: 0 <= i < |init| ==> init[i] == xs[i];
    }
  }

  /** A predicate and its complement split the list between them. */
  lemma {:induction false} CountComplement<T>(xs: seq<T>, p: T -> bool, q: T -> bool)
    requires forall x :: q(x) == !p(x)
    ensures Count(xs, p) + Count(xs, q) == |xs|
  {
    if xs != [] {
      CountComplement(xs[..|xs| - 1], p, q);
    }
  }

  /** A weaker predicate counts at least as many elements. */
  lemma {:induction false} CountMonotone<T>(xs: seq<T>, p: T -> bool, q: T -> bool)
    requires forall x :: p(x) ==> q(x)
    ensures Count(xs, p) <= Count(xs, q)
  {
    if xs != [] {
      CountMonotone(xs[..|xs| - 1], p, q);
    }
  }

  /** The relations the statistics line always satisfies: completed and pending add up to
      the total, high-priority tasks are some of all tasks, overdue tasks are some of the
      pending ones. */
  lemma StatsConsistent(tasks: seq<Task>, now: int, parse: string -> Option<int>)
    ensures var s := StatsOf(tasks, now, parse);
      && s.total == |tasks|
      && s.completed + s.pending == s.total
      && s.high <= s.total
      && s.overdue <= s.pending
  {
    CountComplement(tasks, IsCompleted, IsPending);
    CountMonotone(tasks, OverdueAt(now, parse), IsPending);
  }

  /** The statistics effect: one pass over the tasks that bumps one counter per rule. */
  method ComputeStats(tasks: seq<Task>, now: int, parse: string -> Option<int>) returns (s: Stats)
    ensures s == StatsOf(tasks, now, parse)
    ensures s.total == |tasks| && s.completed + s.pending == s.total
    ensures s.high <= s.total && s.overdue <= s.pending
  {
    var total := |tasks|;
    var completed, pending, high, overdue := 0, 0, 0, 0;
    var i := 0;
    while i < |tasks|
      invariant 0 <= i <= |tasks|
      invariant completed == Count(tasks[..i], IsCompleted)
      invariant pending == Count(tasks[..i], IsPending)
      invariant high == Count(tasks[..i], IsHighPriority)
      invariant overdue == Count(tasks[..i], OverdueAt(now, parse))
    {
      var tk := tasks[i];
      assert tasks[..i + 1][..i] == tasks[..i];
      if tk.status == Some(COMPLETED) {
        completed := completed + 1;
      } else {
        pending := pending + 1;
      }
      if tk.priority == Some("Alta") || tk.priority == Some("Crítica") {
        high := high + 1;
      }
      if tk.dueDate.Some? && tk.dueDate.value != "" && tk.status != Some(COMPLETED) {
        var d := parse(tk.dueDate.value);
        if d.Some? && d.value < now {
          overdue := overdue + 1;
        }
      }
      i := i + 1;
    }
    assert tasks[..|tasks|] == tasks;
    s := Stats(total, completed, pending, high, overdue);
    StatsConsistent(tasks, now, parse);
  }

  // ----------------------------------------------------------------------------------
  // The editing form

  /** The form fields; project and assignee are select values where 0 means "none". */
  datatype Form = Form(
    title: string,
    description: string,
    status: string,
    priority: string,
    projectId: int,
    assignedTo: int,
    dueDate: string,
    estimatedHours: string)

  function InitialForm(): (r: Form)
    ensures r.title == "" && r.description == "" && r.dueDate == "" && r.estimatedHours == ""
    ensures r.status == "Pendiente" && r.priority == "Media"
    ensures r.projectId == 0 && r.assignedTo == 0
  {
    Form("", "", "Pendiente", "Media", 0, 0, "", "")
  }

  /** The form filled from a task. `hoursText` stands for `String(number)`; a missing or
      zero estimate leaves the field empty. */
  function FormOf(t: Task, hoursText: real -> string): (r: Form)
    ensures r.title == t.title
    ensures t.description.Some? ==> r.description == t.description.value
    ensures t.status.Some? ==> r.status == t.status.value
    ensures t.priority.Some? ==> r.priority == t.priority.value
    ensures t.projectId.Some? ==> r.projectId == t.projectId.value
    ensures t.assignedToId.Some? ==> r.assignedTo == t.assignedToId.value
    ensures t.dueDate.Some? ==> r.dueDate == t.dueDate.value
    ensures t.estimatedHours.None? || t.estimatedHours == Some(0.0) ==> r.estimatedHours == ""
    ensures t.estimatedHours.Some? && t.estimatedHours.value != 0.0 ==> r.estimatedHours == hoursText(t.estimatedHours.value)
    ensures t.description.None? ==> r.description == InitialForm().description
    ensures t.status.None? ==> r.status == InitialForm().status
    ensures t.priority.None? ==> r.priority == InitialForm().priority
    ensures t.projectId.None? ==> r.projectId == InitialForm().projectId
    ensures t.assignedToId.None? ==> r.assignedTo == InitialForm().assignedTo
    ensures t.dueDate.None? ==> r.dueDate == InitialForm().dueDate
  {
    Form(
      t.title,
      OrElse(t.description, ""),
      OrElse(t.status, "Pendiente"),
      OrElse(t.priority, "Media"),
      OrElse(t.projectId, 0),
      OrElse(t.assignedToId, 0),
      OrElse(t.dueDate, ""),
      if t.estimatedHours.Some? && t.estimatedHours.value != 0.0
      then hoursText(t.estimatedHours.value) else "")
  }

  /** Every default of the filled form is the initial form's value for that field: a task
      with nothing set fills the initial form with its title. */
  lemma FormOfBareTask(t: Task, hoursText: real -> string)
    requires t.description.None? && t.status.None? && t.priority.None?
    requires t.projectId.None? && t.assignedToId.None? && t.dueDate.None?
    requires t.estimatedHours.None? || t.estimatedHours == Some(0.0)
    ensures FormOf(t, hoursText) == InitialForm().(title := t.title)
  {
  }

  /** The JSON body that Add and Update send. `None` is a key left `undefined`, which
      `JSON.stringify` omits. `estimatedHours` carries the field's text, which the tab
      hands to `parseFloat`. */
  datatype Payload = Payload(
    title: string,
    description: string,
    status: string,
    priority: string,
    projectId: Option<int>,
    assignedTo: Option<int>,
    dueDate: Option<string>,
    estimatedHours: Option<string>)

  /** The body built from the form: the trimmed title, the text fields as typed, and the
      optional fields only when set. */
  function PayloadOf(f: Form): (p: Payload)
    ensures p.title == Trim(f.title) && Trim(p.title) == p.title
    ensures p.description == f.description && p.status == f.status && p.priority == f.priority
    ensures p.projectId.None? <==> f.projectId == 0
    ensures p.projectId.Some? ==> p.projectId.value == f.projectId
    ensures p.assignedTo.None? <==> f.assignedTo == 0
    ensures p.assignedTo.Some? ==> p.assignedTo.value == f.assignedTo
    ensures p.dueDate.None? <==> f.dueDate == ""
    ensures p.dueDate.Some? ==> p.dueDate.value == f.dueDate
    ensures p.estimatedHours.None? <==> f.estimatedHours == ""
    ensures p.estimatedHours.Some? ==> p.estimatedHours.value == f.estimatedHours
  {
    TrimIdempotent(f.title);
    Payload(
      Trim(f.title),
      f.description,
      f.status,
      f.priority,
      if f.projectId != 0 then Some(f.projectId) else None,
      if f.assignedTo != 0 then Some(f.assignedTo) else None,
      if f.dueDate != "" then Some(f.dueDate) else None,
      if f.estimatedHours != "" then Some(f.estimatedHours) else None)
  }

  /** Selecting a task and saving it unchanged sends the task's own text back: the title
      trimmed, and a null description, status or priority as its default. */
  lemma SaveSelectedTaskText(t: Task, hoursText: real -> string)
    ensures var p := PayloadOf(FormOf(t, hoursText));
      && p.title == Trim(t.title)
      && p.description == OrElse(t.description, "")
      && p.status == OrElse(t.status, "Pendiente")
      && p.priority == OrElse(t.priority, "Media")
  {
  }

  /** Selecting a task and saving it unchanged sends its project exactly when the task
      had a non-zero one, and then unchanged. */
  lemma SaveSelectedTaskProject(t: Task, hoursText: real -> string)
    ensures PayloadOf(FormOf(t, hoursText)).projectId == if t.projectId == Some(0) then None else t.projectId
  {
    var f := FormOf(t, hoursText);
    assert f.projectId == OrElse(t.projectId, 0);
  }

  /** Selecting a task and saving it unchanged sends its assignee exactly when the task
      had a non-zero one, and then unchanged. */
  lemma SaveSelectedTaskAssignee(t: Task, hoursText: real -> string)
    ensures PayloadOf(FormOf(t, hoursText)).assignedTo == if t.assignedToId == Some(0) then None else t.assignedToId
  {
    var f := FormOf(t, hoursText);
    assert f.assignedTo == OrElse(t.assignedToId, 0);
  }

  /** Selecting a task and saving it unchanged sends its due date exactly when the task
      had a non-empty one, and an estimate exactly when it had a non-zero one, as long as
      rendering a number never gives the empty string. */
  lemma SaveSelectedTaskSchedule(t: Task, hoursText: real -> string)
    requires t.estimatedHours.Some? ==> hoursText(t.estimatedHours.value) != ""
    ensures var p := PayloadOf(FormOf(t, hoursText));
      && p.dueDate == (if t.dueDate == Some("") then None else t.dueDate)
      && (p.estimatedHours.Some? <==> t.estimatedHours.Some? && t.estimatedHours.value != 0.0)
  {
  }

  /** A request the tab sends to the task endpoint. */
  datatype Request = Create(body: Payload) | Replace(id: int, body: Payload) | Delete(id: int)

  /** What a handler does after its checks: send a request, refuse with an alert, or
      return silently. */
  datatype Decision = Send(request: Request) | Refuse(alert: string) | Abandon

  const TITLE_REQUIRED := "El título es requerido"
  const SELECT_A_TASK := "Selecciona una tarea"

  /** `!selectedId` is false: a selection other than `null` and other than 0. */
  predicate HasSelection(selected: Option<int>)
  {
    selected.Some? && selected.value != 0
  }

  /** The checks of Add: a title that is blank after trimming is refused. */
  function AddDecision(f: Form): (d: Decision)
    ensures d.Send? <==> Trim(f.title) != ""
    ensures d.Send? ==> d.request == Create(PayloadOf(f))
    ensures !d.Send? ==> d == Refuse(TITLE_REQUIRED)
  {
    if Trim(f.title) == "" then Refuse(TITLE_REQUIRED) else Send(Create(PayloadOf(f)))
  }

  /** The checks of Update: first a selection, then a non-blank title. */
  function UpdateDecision(selected: Option<int>, f: Form): (d: Decision)
    ensures d.Send? <==> HasSelection(selected) && Trim(f.title) != ""
    ensures d.Send? ==> d.request == Replace(selected.value, PayloadOf(f))
    ensures !HasSelection(selected) ==> d == Refuse(SELECT_A_TASK)
    ensures HasSelection(selected) && Trim(f.title) == "" ==> d == Refuse(TITLE_REQUIRED)
  {
    if !HasSelection(selected) then Refuse(SELECT_A_TASK)
    else if Trim(f.title) == "" then Refuse(TITLE_REQUIRED)
    else Send(Replace(selected.value, PayloadOf(f)))
  }

  /** Add and Update send the same body for the same form; a sent title is never blank. */
  lemma AddAndUpdateAgree(selected: Option<int>, f: Form)
    requires UpdateDecision(selected, f).Send?
    ensures AddDecision(f).Send?
    ensures AddDecision(f).request.body == UpdateDecision(selected, f).request.body
    ensures UpdateDecision(selected, f).request.body.title != ""
  {
  }

  /** Where `tasks.find(x => x.id === id)` finds its task: the first position holding that id. */
  function FindIndex(tasks: seq<Task>, id: int): (r: Option<nat>)
    ensures r.Some? ==> r.value < |tasks| && tasks[r.value].id == id
    ensures r.Some? ==> forall j :: 0 <= j < r.value ==> tasks[j].id != id
    ensures r.None? <==> forall j :: 0 <= j < |tasks| ==> tasks[j].id != id
  {
    if tasks == [] then None
    else if tasks[0].id == id then Some(0)
    else match FindIndex(tasks[1..], id)
      case None => None
      case Some(k) => Some(k + 1)
  }

  /** The question Remove asks before deleting. */
  function DeletePrompt(t: Task): (r: string)
    ensures |r| == |t.title| + 18 && r[17..|r| - 1] == t.title
    ensures r[..17] == "¿Eliminar tarea: " && r[|r| - 1] == '?'
  {
    "¿Eliminar tarea: " + t.title + "?"
  }

  /** The checks of Remove: a selection, a task with that id in the list, and the user's
      answer `confirm` gives to the prompt naming that task. */
  function RemoveDecision(selected: Option<int>, tasks: seq<Task>, confirm: string -> bool): (d: Decision)
    ensures !HasSelection(selected) ==> d == Refuse(SELECT_A_TASK)
    ensures HasSelection(selected) && (forall j :: 0 <= j < |tasks| ==> tasks[j].id != selected.value)
      ==> d == Abandon
    ensures d.Send? <==> (HasSelection(selected) && FindIndex(tasks, selected.value).Some?
      && confirm(DeletePrompt(tasks[FindIndex(tasks, selected.value).value])))
    ensures d.Send? ==> HasSelection(selected) && d.request == Delete(selected.value)
    ensures d.Send? ==> exists j :: 0 <= j < |tasks| && tasks[j].id == selected.value && confirm(DeletePrompt(tasks[j]))
    ensures !d.Refuse? || d == Refuse(SELECT_A_TASK)
  {
    if !HasSelection(selected) then Refuse(SELECT_A_TASK)
    else match FindIndex(tasks, selected.value)
      case None => Abandon
      case Some(k) => if confirm(DeletePrompt(tasks[k])) then Send(Delete(selected.value)) else Abandon
  }

  /** The body of an error reply; only its `error` field is read. */
  datatype ErrorBody = ErrorBody(error: Option<string>)

  /** A request that was sent and answered with an ok status. */
  predicate Succeeded(sent: Option<Request>, reply: Reply<ErrorBody>)
  {
    sent.Some? && reply.Received? && reply.ok
  }

  /** The alert Add or Update shows: the refusal, the server's error (or "Error") on a
      failed status, the success message, or none when the request itself rejected. */
  function SaveAlert(d: Decision, reply: Reply<ErrorBody>, success: string): (a: Option<string>)
    ensures d.Refuse? ==> a == Some(d.alert)
    ensures d.Send? && reply.Received? && !reply.ok ==> a == Some(OrElse(reply.body.error, "Error"))
    ensures d.Send? && reply.Received? && reply.ok ==> a == Some(success)
    ensures a.None? <==> d.Abandon? || (d.Send? && reply.Failed?)
  {
    match d
    case Refuse(m) => Some(m)
    case Abandon => None
    case Send(_) =>
      match reply
      case Failed => None
      case Received(ok, body) => Some(if ok then success else OrElse(body.error, "Error"))
  }

  /** The state of the tab that its handlers change. */
  class TasksTab {
    var tasks: seq<Task>
    var form: Form
    var selectedId: Option<int>
    var stats: Stats

    constructor ()
      ensures tasks == [] && form == InitialForm() && selectedId == None
      ensures stats == Stats(0, 0, 0, 0, 0)
    {
      tasks := [];
      form := InitialForm();
      selectedId := None;
      stats := Stats(0, 0, 0, 0, 0);
    }

    /** The effect that recomputes the statistics whenever the task list changes. */
    method RefreshStats(now: int, parse: string -> Option<int>)
      modifies this`stats
      ensures stats == StatsOf(tasks, now, parse)
      ensures stats.completed + stats.pending == stats.total == |tasks|
      ensures stats.high <= stats.total && stats.overdue <= stats.pending
    {
      stats := ComputeStats(tasks, now, parse);
    }

    /** Restores the initial form and drops the selection; the new state does not depend
      on the old one, so clearing a cleared form changes nothing. */
    method ClearForm()
      modifies this`form, this`selectedId
      ensures form == InitialForm() && selectedId == None
      ensures old(form) == InitialForm() && old(selectedId) == None ==> unchanged(this)
    {
      form := InitialForm();
      selectedId := None;
    }

    method SelectTask(t: Task, hoursText: real -> string)
      modifies this`form, this`selectedId
      ensures selectedId == Some(t.id) && form == FormOf(t, hoursText)
    {
      selectedId := Some(t.id);
      form := FormOf(t, hoursText);
    }

    /** Add: check the title, send the create request, and clear the form once the
        server accepts it. */
    method Add(reply: Reply<ErrorBody>) returns (sent: Option<Request>, alert: Option<string>)
      modifies this`form, this`selectedId
      ensures var d := AddDecision(old(form));
        && sent == (if d.Send? then Some(d.request) else None)
        && alert == SaveAlert(d, reply, "Tarea agregada")
      ensures Succeeded(sent, reply) ==> form == InitialForm() && selectedId == None
      ensures !Succeeded(sent, reply) ==> form == old(form) && selectedId == old(selectedId)
    {
      var d := AddDecision(form);
      alert := SaveAlert(d, reply, "Tarea agregada");
      if !d.Send? {
        sent := None;
        return;
      }
      sent := Some(d.request);
      if reply.Received? && reply.ok {
        ClearForm();
      }
    }

    /** Update: check the selection and the title, send the replace request, and clear
        the form once the server accepts it. */
    method Update(reply: Reply<ErrorBody>) returns (sent: Option<Request>, alert: Option<string>)
      modifies this`form, this`selectedId
      ensures var d := UpdateDecision(old(selectedId), old(form));
        && sent == (if d.Send? then Some(d.request) else None)
        && alert == SaveAlert(d, reply, "Tarea actualizada")
      ensures Succeeded(sent, reply) ==> form == InitialForm() && selectedId == None
      ensures !Succeeded(sent, reply) ==> form == old(form) && selectedId == old(selectedId)
    {
      var d := UpdateDecision(selectedId, form);
      alert := SaveAlert(d, reply, "Tarea actualizada");
      if !d.Send? {
        sent := None;
        return;
      }
      sent := Some(d.request);
      if reply.Received? && reply.ok {
        ClearForm();
      }
    }

    /** Remove: check the selection, find the task, ask for confirmation, send the delete
        request, and clear the form once the server accepts it. A failed status shows a
        fixed message without reading the body. */
    method Remove(confirm: string -> bool, reply: Reply<ErrorBody>) returns (sent: Option<Request>, alert: Option<string>)
      modifies this`form, this`selectedId
      ensures var d := RemoveDecision(old(selectedId), tasks, confirm);
        && sent == (if d.Send? then Some(d.request) else None)
        && (d.Refuse? ==> alert == Some(d.alert))
        && (d.Abandon? ==> alert == None)
      ensures sent.Some? && reply.Failed? ==> alert == None
      ensures sent.Some? && reply.Received? ==>
        alert == Some(if reply.ok then "Tarea eliminada" else "Error al eliminar")
      ensures Succeeded(sent, reply) ==> form == InitialForm() && selectedId == None
      ensures !Succeeded(sent, reply) ==> form == old(form) && selectedId == old(selectedId)
    {
      var d := RemoveDecision(selectedId, tasks, confirm);
      match d {
        case Refuse(m) =>
          sent, alert := None, Some(m);
        case Abandon =>
          sent, alert := None, None;
        case Send(request) =>
          sent := Some(request);
          match reply {
            case Failed =>
              alert := None;
            case Received(ok, _) =>
              if ok {
                ClearForm();
                alert := Some("Tarea eliminada");
              } else {
                alert := Some("Error al eliminar");
              }
          }
      }
    }
  }
}

=== FILE: text.dfy ===
/** The string operations of JavaScript that the tabs rely on: `String.prototype.trim`,
    `Array.prototype.join`, `String(n)` on an integer, and `toUpperCase` on ASCII text.
    `String.prototype.split` on a one-character separator is here as well. No tab calls
    it: it is the inverse of `join` and of the `text +=` loop, with which an output is read
    back as the lines its text area shows. */
module Text {

  /** White space and line terminators as ECMAScript's `trim` removes them:
      TAB, LF, VT, FF, CR, SPACE, NBSP, the Zs space separators, LS, PS and the BOM. */
  predicate IsSpace(c: char)
  {
    || c == '\t' || c == '\n' || c == '\U{0B}' || c == '\U{0C}' || c == '\r' || c == ' '
    || c == '\U{A0}' || c == '\U{1680}' || ('\U{2000}' <= c <= '\U{200A}')
    || c == '\U{2028}' || c == '\U{2029}' || c == '\U{202F}' || c == '\U{205F}'
    || c == '\U{3000}' || c == '\U{FEFF}'
  }

  /** Drops the longest all-space prefix. */
  function TrimStart(s: string): (r: string)
    ensures |r| <= |s| && r == s[|s| - |r|..]
    ensures forall i :: 0 <= i < |s| - |r| ==> IsSpace(s[i])
    ensures r == [] || !IsSpace(r[0])
  {
    if s != [] && IsSpace(s[0]) then TrimStart(s[1..]) else s
  }

  /** Drops the longest all-space suffix. */
  function TrimEnd(s: string): (r: string)
    ensures |r| <= |s| && r == s[..|r|]
    ensures forall i :: |r| <= i < |s| ==> IsSpace(s[i])
    ensures r == [] || !IsSpace(r[|r| - 1])
  {
    if s != [] && IsSpace(s[|s| - 1]) then TrimEnd(s[..|s| - 1]) else s
  }

  /** How many white-space characters `s` starts with. */
  function LeadingSpaces(s: string): (k: nat)
    ensures k <= |s|
    ensures forall i :: 0 <= i < k ==> IsSpace(s[i])
    ensures k < |s| ==> !IsSpace(s[k])
  {
    |s| - |TrimStart(s)|
  }

  /** `s.trim()`: the slice of `s` between its leading and its trailing white space. */
  function Trim(s: string): (r: string)
    ensures LeadingSpaces(s) + |r| <= |s| && r == s[LeadingSpaces(s)..LeadingSpaces(s) + |r|]
    ensures r == [] || (!IsSpace(r[0]) && !IsSpace(r[|r| - 1]))
  {
    var t := TrimStart(s);
    var r := TrimEnd(t);
    TrimSlice(s, |s| - |t|, t, r);
    r
  }

  /** A prefix of a suffix is a slice. */
  lemma TrimSlice(s: string, k: nat, t: string, r: string)
    requires k <= |s| && t == s[k..] && |r| <= |t| && r == t[..|r|]
    ensures k + |r| <= |s| && r == s[k..k + |r|]
    ensures r != [] ==> r[0] == t[0]
  {
  }

  /** What `trim` removes is white space only: everything outside the trimmed slice is space. */
  lemma TrimRemovesOnlySpace(s: string)
    ensures var k, r := LeadingSpaces(s), Trim(s);
      && (forall i :: 0 <= i < k ==> IsSpace(s[i]))
      && (forall i :: k + |r| <= i < |s| ==> IsSpace(s[i]))
  {
    var t := TrimStart(s);
    var r := TrimEnd(t);
    var k := |s| - |t|;
    assert t == s[k..];
    forall i | k + |r| <= i < |s| ensures IsSpace(s[i]) {
      assert s[i] == t[i - k];
    }
  }

  /** `!s.trim()` holds exactly when every character of `s` is white space
      (in particular for the empty string). */
  lemma TrimEmptyIffAllSpace(s: string)
    ensures Trim(s) == [] <==> forall i :: 0 <= i < |s| ==> IsSpace(s[i])
  {
    var t := TrimStart(s);
    if t != [] {
      var k := |s| - |t|;
      assert t[0] == s[k];
      assert Trim(s) == TrimEnd(t);
    } else {
      assert Trim(s) == TrimEnd(t);
    }
  }

  /** Trimming twice trims no more than trimming once. */
  lemma TrimIdempotent(s: string)
    ensures Trim(Trim(s)) == Trim(s)
  {
    var r := Trim(s);
    assert TrimStart(r) == r;
    assert TrimEnd(r) == r;
  }

  /** `lines.join(sep)`: the lines with one separator between each two of them. */
  function Join(lines: seq<string>, sep: char): (r: string)
    ensures lines == [] ==> r == ""
    ensures lines != [] ==> |r| >= |lines| - 1 && |lines[0]| <= |r| && r[..|lines[0]|] == lines[0]
  {
    if |lines| == 0 then ""
    else if |lines| == 1 then lines[0]
    else lines[0] + [sep] + Join(lines[1..], sep)
  }

  /** `text.split(sep)`: the pieces between separators; never empty, and `"".split(sep)`
      is `[""]`. */
  function Split(text: string, sep: char): (r: seq<string>)
    ensures |r| >= 1
  {
    if text == [] then [""]
    else
      var rest := Split(text[1..], sep);
      if text[0] == sep then [""] + rest
      else [[text[0]] + rest[0]] + rest[1..]
  }

  /** The lines of `text`, each followed by a line feed: what a loop of
      `text += line + "\n"` produces. */
  function Terminated(lines: seq<string>): (r: string)
    ensures |r| >= |lines|
    ensures lines != [] ==> r[|r| - 1] == '\n'
  {
    if lines == [] then "" else Terminated(lines[..|lines| - 1]) + lines[|lines| - 1] + "\n"
  }

  /** Splitting at a separator splits the two sides independently. */
  lemma {:induction false} SplitAtSeparator(a: string, sep: char, b: string)
    ensures Split(a + [sep] + b, sep) == Split(a, sep) + Split(b, sep)
  {
    if a == [] {
      assert a + [sep] + b == [sep] + b;
      assert ([sep] + b)[1..] == b;
    } else {
      assert (a + [sep] + b)[1..] == a[1..] + [sep] + b;
      SplitAtSeparator(a[1..], sep, b);
    }
  }

  /** Text without a separator is one piece. */
  lemma {:induction false} SplitWithoutSeparator(a: string, sep: char)
    requires sep !in a
    ensures Split(a, sep) == [a]
  {
    if a != [] {
      SplitWithoutSeparator(a[1..], sep);
      assert [a[0]] + a[1..] == a;
    }
  }

  /** Splitting undoes joining, as long as no line contains the separator. */
  lemma {:induction false} SplitJoin(lines: seq<string>, sep: char)
    requires |lines| >= 1
    requires forall i :: 0 <= i < |lines| ==> sep !in lines[i]
    ensures Split(Join(lines, sep), sep) == lines
  {
    SplitWithoutSeparator(lines[0], sep);
    if |lines| > 1 {
      SplitAtSeparator(lines[0], sep, Join(lines[1..], sep));
      SplitJoin(lines[1..], sep);
      assert [lines[0]] + lines[1..] == lines;
    }
  }

  /** Joining one more line adds one separator and the line. */
  lemma {:induction false} JoinSnoc(lines: seq<string>, sep: char, last: string)
    requires |lines| >= 1
    ensures Join(lines + [last], sep) == Join(lines, sep) + [sep] + last
  {
    if |lines| > 1 {
      assert (lines + [last])[1..] == lines[1..] + [last];
      JoinSnoc(lines[1..], sep, last);
    }
  }

  /** Line-feed terminated lines are the lines joined with line feeds, plus an empty last line. */
  lemma {:induction false} TerminatedIsJoin(lines: seq<string>)
    ensures Terminated(lines) == Join(lines + [""], '\n')
  {
    if lines != [] {
      var init := lines[..|lines| - 1];
      var last := lines[|lines| - 1];
      assert lines == init + [last];
      assert Terminated(lines) == Terminated(init) + last + "\n";
      TerminatedIsJoin(init);
      if init == [] {
        assert lines + [""] == [last, ""];
      } else {
        JoinSnoc(init, '\n', "");
        JoinSnoc(init, '\n', last);
        JoinSnoc(lines, '\n', "");
      }
    }
  }

  /** The joined text ends with the last line, so it ends with a separator only when
      the last line is empty. */
  lemma {:induction false} JoinEndsWithLast(lines: seq<string>, sep: char)
    requires |lines| >= 1
    ensures var t := Join(lines, sep);
      var last := lines[|lines| - 1];
      |last| <= |t| && t[|t| - |last|..] == last
  {
    if |lines| > 1 {
      JoinEndsWithLast(lines[1..], sep);
    }
  }

  predicate IsDigit(c: char)
  {
    '0' <= c <= '9'
  }

  function Digit(d: nat): (c: char)
    requires d < 10
  {
    "0123456789"[d]
  }

  /** `String(n)` for a non-negative integer: its decimal digits, without leading zeros. */
  function NatToString(n: nat): (r: string)
    ensures |r| >= 1
    ensures forall i :: 0 <= i < |r| ==> IsDigit(r[i])
    ensures n > 0 ==> r[0] != '0'
    ensures n == 0 ==> r == "0"
  {
    if n < 10 then [Digit(n)] else NatToString(n / 10) + [Digit(n % 10)]
  }

  /** The number a string of decimal digits denotes. */
  function DigitsValue(s: string): nat
    requires forall i :: 0 <= i < |s| ==> IsDigit(s[i])
  {
    if s == [] then 0
    else
      var last := s[|s| - 1];
      assert IsDigit(last);
      10 * DigitsValue(s[..|s| - 1]) + (last as int - '0' as int)
  }

  /** Reading back the decimal rendering gives the number. */
  lemma {:induction false} NatToStringRoundTrip(n: nat)
    ensures DigitsValue(NatToString(n)) == n
  {
    if n >= 10 {
      var r := NatToString(n);
      assert r[..|r| - 1] == NatToString(n / 10);
      NatToStringRoundTrip(n / 10);
    }
  }

  /** `String(i)` for an integer: an optional minus sign, then the digits. */
  function IntToString(i: int): (r: string)
    ensures r != [] && (r[0] == '-' <==> i < 0)
    ensures i >= 0 ==> r == NatToString(i)
    ensures i < 0 ==> r == "-" + NatToString(-i)
  {
    if i < 0 then "-" + NatToString(-i) else NatToString(i)
  }

  /** After the sign, the rendering of an integer is all digits, and they read back as
      the integer's magnitude. */
  lemma IntToStringRoundTrip(i: int)
    ensures i >= 0 ==> DigitsValue(IntToString(i)) == i
    ensures i < 0 ==> IntToString(i)[1..] == NatToString(-i) && DigitsValue(IntToString(i)[1..]) == -i
  {
    if i < 0 {
      var r := IntToString(i);
      assert r[1..] == NatToString(-i);
      NatToStringRoundTrip(-i);
    } else {
      NatToStringRoundTrip(i);
    }
  }

  /** `toUpperCase` on one ASCII character; other characters are left alone. */
  function UpperChar(c: char): char
  {
    if 'a' <= c <= 'z' then (c as int - 'a' as int + 'A' as int) as char else c
  }

  /** `s.toUpperCase()` for ASCII text. */
  function Upper(s: string): (r: string)
    ensures |r| == |s|
  {
    seq(|s|, i requires 0 <= i < |s| => UpperChar(s[i]))
  }
}

=== FILE: wrappers.dfy ===
/** Small datatypes shared by every tab: optional values, results, and server replies. */
module Wrappers {

  /** A value that JavaScript may leave `null` or `undefined`. */
  datatype Option<+T> = None | Some(value: T)

  /** The outcome of a check: the accepted value, or the error it was refused with. */
  datatype Result<+T, +E> = Ok(value: T) | Err(error: E)

  /** What an awaited `fetch(...)`, and the `r.json()` that follows it where the handler
      reads the body, deliver to a handler: either the promise rejected (a network failure,
      or a body the handler decodes that is not JSON), or a response with its `ok` flag and
      its decoded body. A handler that does not read the body ignores `body`. */
  datatype Reply<+B> = Failed | Received(ok: bool, body: B)

  /** What a handler that catches a rejected promise shows. */
  const CONNECTION_ERROR := "Error de conexión"

  /** JavaScript's nullish coalescing `o ?? fallback`. */
  function OrElse<T>(o: Option<T>, fallback: T): (r: T)
    ensures o.Some? ==> r == o.value
    ensures o.None? ==> r == fallback
  {
    match o
    case Some(v) => v
    case None => fallback
  }
}
